=== FILE: README.md ===
# Todo collaboration core, modelled in Dafny

This project models the real-time collaboration layer of the TODO board and
the status rules it depends on. There are three parts:

- **The server's WebSocket state machine** (`server/src/ws.ts`). It keeps a
  lock table per collection (todo id to the holder's display name) and the
  ordered set of connected clients. Each event is a pure function returning the
  next state and the messages sent, in order. The events are connect, a JSON
  message (`JOIN_COLLECTION`, `LOCK_TODO`, `UNLOCK_TODO`), a socket leaving the
  OPEN state, close, and `broadcastTodoUpdated`.
- **The status rules and `updateTodo`'s guard order**
  (`server/src/controllers/todo-controller.ts`), together with the helpers they
  throw through: `asserts.ts`, `errors.ts` and the Express error handler.
- **The client mirror.** The `useTodoCollaboration` hook (`collaboration.ts`) is
  a state with one handler per socket callback. The board logic of
  `todo-panel.tsx` covers:
  - the client transition table;
  - the `onTodoChange` reducer;
  - the sorted columns;
  - the drag handlers: the list each one's closure searches, and the drag-end
    decision with its optimistic update and revert;
  - the column highlight and the locked flag.

Modules, one per file:

| module | file | models |
|---|---|---|
| `Wrappers` | `wrappers.dfy` | `Option`, `Result`, `Outcome` |
| `Seqs` | `seqs.dfy` | JavaScript `find`/`findIndex`, shared by the server and the board |
| `Text` | `text.dfy` | JavaScript `join`, `split` and `String(n)` |
| `Errors` | `errors.dfy` | `errors.ts` |
| `Asserts` | `asserts.dfy` | `asserts.ts` |
| `ErrorHandler` | `error_handler.dfy` | `error-handler.ts` |
| `Todos` | `todos.dfy` | the todo record shared by server and client |
| `TodoController` | `todo_controller.dfy` | `todo-controller.ts` |
| `WsServer` | `ws_server.dfy` | `ws.ts` |
| `WsProperties` | `ws_properties.dfy` | properties across events |
| `Collaboration` | `collaboration.dfy` | `collaboration.ts` |
| `TodoPanel` | `todo_panel.dfy` | `todo-panel.tsx` |

Modelling choices:

- A thrown exception is an `Err`/`Fail` value that carries the error.
- JavaScript truthiness is decided on a small `JsValue` type.
- An object spread is modelled property by property. A property can be missing,
  present as `undefined`, or present with a value.
- `validateJwtToken` and `process.env.NODE_ENV` are parameters.
- `updatedAt` is an abstract, totally ordered integer.

## Model

| member | source | states |
|---|---|---|
| Errors.BaseCustomError | server/src/utils/errors.ts:20-26 | the error is named `CustomError`, keeps its message, and stores the details record as given |
| Errors.ValidationError | server/src/utils/errors.ts:33-43 | name `ValidationError`; the status defaults to 400 and the client message to the error's own message; each property the caller's details carry (even as `undefined`) overrides the default; `originalError` comes from the caller |
| Errors.ServerError | server/src/utils/errors.ts:48-60 | name `ServerError`; the status defaults to 500 and the client message to `Oops, something went wrong`; the caller's properties override either default |
| Errors.SpreadOptional | server/src/utils/errors.ts:35-39 | spreading `undefined` leaves the defaults; otherwise every property the later object has, even as `undefined`, wins |
| Asserts.Assert | server/src/utils/asserts.ts:4-12 | passes if and only if the value is truthy; on failure throws exactly `new ValidationError(message, details)` with the message defaulting to `Assertion failed`: status 400 unless the caller's details set one, in which case that status is used, and the message as client message unless the details set one |
| Asserts.AssertFound | server/src/utils/asserts.ts:14-25 | passes if and only if the value is truthy; on failure throws exactly `new ValidationError(message, { clientHttpStatus: 404, ...details })`: the status is 404 unless the caller's details set one, and the caller's `originalError` and `clientMessage` pass through unchanged, the client message defaulting to the error message |
| Asserts.EnsureTruthy | server/src/utils/asserts.ts:27-35 | returns the value unchanged exactly when it is truthy; otherwise throws exactly what `assert` throws |
| Asserts.AssertSchema | server/src/utils/asserts.ts:37-46 | throws exactly when the schema's `safeParse` fails; the error is a 400 `ValidationError` whose message is the issue report |
| Asserts.ZodErrorToString | server/src/utils/asserts.ts:48-53 | no issues give the empty report; one issue gives its single `Field <path> - <message>` line; with more, the first line is followed by a newline |
| Asserts.ZodErrorLines | server/src/utils/asserts.ts:48-53 | splitting the report on newlines gives back one `Field <path joined by '.'> - <message>` line per issue, in issue order, when no key or message holds a newline |
| Text.SplitJoin | server/src/utils/asserts.ts:50-52 | joining lines with a separator that none of them contains, then splitting on it, gives back the lines |
| ErrorHandler.HandleError | server/src/utils/error-handler.ts:15-26 | `success` is false; a custom error with a truthy status answers that status, and anything else answers 500; the body's error is the message, or `Internal Server Error` when the message is empty; the stack is omitted exactly in production |
| ErrorHandler.ExplicitUndefinedStatusAnswers500 | server/src/utils/error-handler.ts:15-18 | a `ValidationError` whose details set the status to `undefined` loses its 400 and is answered with 500 |
| TodoController.StatusChangeMap | server/src/controllers/todo-controller.ts:81-85 | no status lists itself, and a status lists exactly the targets of the permitted moves: one step along TODO - ONGOING - DONE |
| TodoController.IsValidStatusChange | server/src/controllers/todo-controller.ts:81-90 | a change is valid if and only if it keeps the status or is one of TODO→ONGOING, ONGOING→DONE, ONGOING→TODO, DONE→ONGOING; TODO→DONE and DONE→TODO are rejected |
| TodoController.StatusChangeSymmetric | server/src/controllers/todo-controller.ts:81-90 | every allowed change can be undone: validity is symmetric |
| TodoController.UpdateTodo | server/src/controllers/todo-controller.ts:52-73 | a missing id fails with `Todo not found` and status 404, before any status check; a disallowed change fails with `Invalid status change` and status 400; on any failure the table is unchanged; the call succeeds if and only if the todo exists and the change is valid, and then only text, status and assignee are written |
| WsServer.Required | server/src/ws.ts:74-77 | `ensureTruthy` on a message field yields the field exactly when it is present and non-empty |
| WsServer.Decode | server/src/ws.ts:69-107 | a message is acted on if and only if its type is known and its required fields are non-empty; the command carries exactly the message's fields; unknown types do nothing |
| WsServer.GetCollection | server/src/ws.ts:109-115 | the key's table is returned; a missing table is created empty and everything else is kept |
| WsServer.DropHolder | server/src/ws.ts:139-143 | keeps exactly the entries whose holder is not the given name, with their holders |
| WsServer.Members | server/src/ws.ts:117-120 | a client is listed if and only if it is joined to the key |
| WsServer.OpenOnes | server/src/ws.ts:152-156 | a recipient is kept if and only if its socket is open |
| WsServer.Render | server/src/ws.ts:122-150 | presence and todo changes go out unchanged to every recipient; a lock table is filtered per recipient, so a recipient's own locks never reach it |
| WsServer.Fanout | server/src/ws.ts:152-156 | exactly one send per open recipient, in recipient order, each carrying the message rendered for that recipient; closed recipients get nothing |
| WsServer.Presence | server/src/ws.ts:122-124 | one name per joined client, in client order |
| WsServer.UpdateActiveUsers | server/src/ws.ts:122-131 | each open member of the collection, in order, is sent the same presence list |
| WsServer.UpdateLocks | server/src/ws.ts:134-150 | the table of the key is created empty if missing and nothing else changes; each open member, in order, is sent the table without its own name's entries |
| WsServer.HandleConnect | server/src/ws.ts:34-47 | corrected: never crashes; a client is registered, unjoined and open, if and only if the token is non-empty and verifies; otherwise nothing changes |
| WsServer.HandleConnectAsWritten | server/src/ws.ts:37-44 | as written: a missing or empty token is refused; a non-empty token that fails verification throws out of the `connection` listener, an uncaught exception that can end the server process |
| WsServer.HandleJoin | server/src/ws.ts:73-81 | only the joiner's collection key changes; no lock table changes |
| WsServer.HandleLock | server/src/ws.ts:82-93 | a todo with a truthy holder keeps it and nothing is sent; otherwise the sender's name becomes the holder and the collection's members are sent the new table |
| WsServer.HandleUnlock | server/src/ws.ts:94-105 | the entry is removed and the new table sent if and only if the sender's name is the holder; otherwise no entry changes and nothing is sent; other collections are untouched |
| WsServer.ReleaseTodoLocks | server/src/ws.ts:158-169 | removes exactly the entries of the client's collection held under its name; every other entry and every other collection stays |
| WsServer.HandleSocketClosing | server/src/ws.ts:152-156 | a socket leaving OPEN stays registered with everything else unchanged, but from then on is skipped by every send; nothing is sent |
| WsServer.HandleClose | server/src/ws.ts:58-62 | the client leaves the client list; if it had joined, its locks are released and the remaining members get presence, never a lock table; otherwise nothing is sent |
| WsServer.BroadcastTodoUpdated | server/src/ws.ts:171-185 | the state is unchanged and every message is the todo with its action |
| WsServer.Step | server/src/ws.ts:34-66 | a decoded message from a registered connection runs its command handler, a close of a registered connection runs the close handler, and a socket leaving OPEN is marked closed; an accepted connect registers the client and sends nothing; an unparsable or undecodable frame, and any event for an unknown connection, changes nothing and sends nothing; `broadcastTodoUpdated` changes no state; only a connect hands out an id, and only a close removes a client |
| WsProperties.GetCollectionIdempotent | server/src/ws.ts:109-115 | a second `getCollection` returns the entry the first created and changes nothing |
| WsProperties.MembersAppend | server/src/ws.ts:117-120 | filtering keeps client order |
| WsProperties.PresenceInClientOrder | server/src/ws.ts:122-131 | presence is the joined clients' names in client order, one per connection, duplicates kept |
| WsProperties.PresenceNames | server/src/ws.ts:122-124 | a name is listed if and only if some client joined to the collection has it |
| WsProperties.LockViewHidesOwnLocks | server/src/ws.ts:134-150 | every `LOCKS_UPDATED` goes to an open recipient and holds every entry except those held under the recipient's own name |
| WsProperties.FirstLockWins | server/src/ws.ts:88-91 | after a lock, a later lock of the same todo by anyone changes nothing and sends nothing |
| WsProperties.OnlyHolderUnlocks | server/src/ws.ts:100-103 | an unlock under another name keeps the entry and sends nothing; one under the holder's name restores the table as it was before the lock |
| WsProperties.SameNameIsSameHolder | server/src/ws.ts:101-141 | two connections under one name get the same lock view, and either one can release the other's lock |
| WsProperties.CloseReleasesOnlyOwnLocks | server/src/ws.ts:58-62 | closing drops the closing name's locks, keeps everyone else's, and sends only presence |
| WsProperties.JoinSendsOnlyPresence | server/src/ws.ts:78-79 | a join sends only the presence list, never the lock table |
| WsProperties.SendsReachOnlyOpenMembers | server/src/ws.ts:117-120 | every message of every event goes to a client that is still registered, open, and joined to the event's collection |
| WsProperties.FanoutReachesMembers | server/src/ws.ts:152-156 | a fan-out over a collection reaches open members of that collection only |
| WsProperties.NoCrossCollectionSends | server/src/ws.ts:171-184 | in a well-formed state, no event sends anything to a client that is closed or joined elsewhere |
| WsProperties.InitialValid | server/src/ws.ts:28 | the empty server state is well formed |
| WsProperties.StepPreservesValid | server/src/ws.ts:34-66 | every event keeps connection ids distinct and handed out, and joined keys non-empty |
| WsProperties.StepLockTakesFreeTodo | server/src/ws.ts:49-93 | in a well-formed state, a `LOCK_TODO` frame from a registered client for a todo nobody holds makes that client's name the holder |
| WsProperties.StepCloseFreesLocks | server/src/ws.ts:58-62 | in a well-formed state, closing a registered connection that joined a collection removes it and leaves no lock in that collection under its name |
| WsProperties.BadTokenEscapesAsWritten | server/src/ws.ts:39-44 | a non-empty token that fails verification crashes the code as written and is refused by the corrected version |
| WsProperties.ConnectAgreesWhenNoCrash | server/src/ws.ts:37-47 | the corrected connect agrees with the written one wherever the latter does not crash |
| Collaboration.Mount | electron-client/src/renderer/src/utils/collaboration.ts:26-46 | a fresh hook is disconnected, has no locks and no users, and has sent nothing |
| Collaboration.SendEvent | electron-client/src/renderer/src/utils/collaboration.ts:32-39 | an event is sent only while the socket is OPEN; otherwise it is dropped and nothing changes |
| Collaboration.OnOpen | electron-client/src/renderer/src/utils/collaboration.ts:48-52 | opening marks the hook connected and sends the join of its own collection |
| Collaboration.OnClose | electron-client/src/renderer/src/utils/collaboration.ts:78-81 | closing marks the hook disconnected and changes nothing else |
| Collaboration.Unmount | electron-client/src/renderer/src/utils/collaboration.ts:87-89 | cleanup moves a connecting or open socket to CLOSING |
| Collaboration.OnMessage | electron-client/src/renderer/src/utils/collaboration.ts:54-76 | `TODO_UPDATED` is forwarded unchanged; `LOCKS_UPDATED` and `ACTIVE_USERS_UPDATED` replace their value wholesale; unknown types and unparsable frames change nothing |
| Collaboration.RequestLock | electron-client/src/renderer/src/utils/collaboration.ts:92-101 | while open, a lock request carrying the todo id and the hook's collection key is sent and nothing else of the hook changes; otherwise nothing changes |
| Collaboration.RequestUnlock | electron-client/src/renderer/src/utils/collaboration.ts:103-112 | while open, an unlock request carrying the todo id and the hook's collection key is sent and nothing else of the hook changes; otherwise nothing changes |
| Collaboration.EncodeDecode | server/src/ws.ts:73-105 | the server decodes each client event into the request it stands for, and ignores it exactly when an id it carries is empty |
| Collaboration.ClientSeesOthersLocks | electron-client/src/renderer/src/utils/collaboration.ts:63-64 | after reading the server's lock table, the client's `lockedTodos` is every lock of the collection held under another name |
| Collaboration.LocksLastWins | electron-client/src/renderer/src/utils/collaboration.ts:63-64 | lock tables are not merged: of two in a row, only the second counts |
| Collaboration.FirstSentIsJoin | electron-client/src/renderer/src/utils/collaboration.ts:32-52 | whatever happens after mount, the first event the hook sends is the join of its own collection |
| Collaboration.RunKeepsJoinsFirst | electron-client/src/renderer/src/utils/collaboration.ts:32-112 | every handler keeps the invariant behind `FirstSentIsJoin` |
| TodoPanel.AllowedStatusTransitions | electron-client/src/renderer/src/pages/todos/todo-panel.tsx:44-48 | no status lists itself, and a status lists exactly the valid changes to another status |
| TodoPanel.ClientTableMatchesServer | electron-client/src/renderer/src/pages/todos/todo-panel.tsx:44-48 | for every status, the client table lists the same targets as the server's map, namely the valid changes to a different status |
| TodoPanel.ModalStatuses | electron-client/src/renderer/src/pages/todos/todo-modals.tsx:145-148 | the edit modal offers exactly the statuses the server accepts |
| TodoPanel.OnTodoChange | electron-client/src/renderer/src/pages/todos/todo-panel.tsx:66-76 | create appends and keeps the existing prefix; update keeps the length, replaces every todo with a matching id and keeps the rest; delete keeps exactly the todos with another id |
| TodoPanel.ReplaceById | electron-client/src/renderer/src/pages/todos/todo-panel.tsx:71-72 | the length is kept; every todo with the id becomes the new todo and every other todo stays |
| TodoPanel.RemoveById | electron-client/src/renderer/src/pages/todos/todo-panel.tsx:73-74 | a todo survives the delete if and only if it was there and has another id |
| TodoPanel.RemoveByIdCounts | electron-client/src/renderer/src/pages/todos/todo-panel.tsx:73-74 | delete keeps every other todo as many times as it occurred and drops every copy of the deleted id |
| TodoPanel.RemoveByIdAppend | electron-client/src/renderer/src/pages/todos/todo-panel.tsx:73-74 | delete keeps the relative order of what remains |
| TodoPanel.ReducerIdempotent | electron-client/src/renderer/src/pages/todos/todo-panel.tsx:71-74 | replaying an update or a delete changes nothing further |
| TodoPanel.ApplyFrame | electron-client/src/renderer/src/utils/collaboration.ts:60-61 | a `TODO_UPDATED` frame changes the list exactly as the reducer does with its todo and action; other frames leave the list alone |
| TodoPanel.OfStatus | electron-client/src/renderer/src/pages/todos/todo-panel.tsx:108-110 | a todo is in a bucket if and only if it is in the list with that status |
| TodoPanel.OfStatusMultiplicity | electron-client/src/renderer/src/pages/todos/todo-panel.tsx:108-110 | a bucket holds each todo of its status as many times as the list does, and nothing of another status |
| TodoPanel.Insert | electron-client/src/renderer/src/pages/todos/todo-panel.tsx:113 | inserting into a sorted column keeps it sorted and adds exactly the one todo |
| TodoPanel.SortByUpdatedAt | electron-client/src/renderer/src/pages/todos/todo-panel.tsx:112-114 | the result is ordered by non-decreasing `updatedAt` and is a permutation of the input |
| TodoPanel.Column | electron-client/src/renderer/src/pages/todos/todo-panel.tsx:101-117 | a column is sorted and is a permutation of the todos of its status |
| TodoPanel.StatusToTodos | electron-client/src/renderer/src/pages/todos/todo-panel.tsx:101-117 | the column of every status is that status's todos, sorted by `updatedAt` and with every copy kept |
| TodoPanel.ColumnsPartition | electron-client/src/renderer/src/pages/todos/todo-panel.tsx:101-110 | the three columns together are exactly as long as the list |
| Seqs.FirstIndex | electron-client/src/renderer/src/pages/todos/todo-panel.tsx:121 | the position found is the first whose element matches; none is found only when no element matches |
| TodoPanel.DecideDragStart | electron-client/src/renderer/src/pages/todos/todo-panel.tsx:167-174 | over the list searched, a lock is requested if and only if the dragged id is in it, and it is for that id |
| TodoPanel.MountBoard | electron-client/src/renderer/src/pages/todos/todo-panel.tsx:88-90 | on the first render both drag handlers search the fetched list, and the socket is not connected |
| TodoPanel.SetTodos | electron-client/src/renderer/src/pages/todos/todo-panel.tsx:66-78 | a list change reaches the current list only; the drag-start closure keeps the list it captured |
| TodoPanel.SetConnected | electron-client/src/renderer/src/pages/todos/todo-panel.tsx:167-174 | a change of `isConnected` rebuilds the drag-start closure over the list of that moment; no change keeps it |
| TodoPanel.DragStartAsWritten | electron-client/src/renderer/src/pages/todos/todo-panel.tsx:167-174 | as written: a lock is requested if and only if the dragged id is in the list captured at the last connection change |
| TodoPanel.DragStart | electron-client/src/renderer/src/pages/todos/todo-panel.tsx:167-174 | corrected: a lock is requested if and only if the dragged id is in the current list |
| TodoPanel.DragStartMissesNewTodos | electron-client/src/renderer/src/pages/todos/todo-panel.tsx:119-174 | a todo created after connecting is dragged without a lock, yet its drag end sends an unlock for it |
| TodoPanel.DragStartAgreesWhileListUnchanged | electron-client/src/renderer/src/pages/todos/todo-panel.tsx:167-174 | the written and corrected drag starts agree while the list is still the one captured at the last connection change |
| TodoPanel.DecideDragEnd | electron-client/src/renderer/src/pages/todos/todo-panel.tsx:119-138 | the unlock is sent if and only if the todo is found; the drag is ignored exactly when there is no todo, no column, or the same column; a rejected target is one the server would refuse; a move is one the server accepts |
| TodoPanel.DragUnlocksWhatItLocked | electron-client/src/renderer/src/pages/todos/todo-panel.tsx:119-174 | corrected: the drag end unlocks exactly what the drag start locked, and nothing when it locked nothing |
| TodoPanel.ApplyOptimistic | electron-client/src/renderer/src/pages/todos/todo-panel.tsx:140-145 | only the dragged todo changes, taking the new status and the current time |
| TodoPanel.Revert | electron-client/src/renderer/src/pages/todos/todo-panel.tsx:149-153 | the dragged todo gets its snapshot's status and `updatedAt` back and keeps every other field; every other todo stays |
| TodoPanel.RevertUndoesOptimistic | electron-client/src/renderer/src/pages/todos/todo-panel.tsx:140-153 | reverting with the snapshot undoes the optimistic update completely |
| TodoPanel.SaveRequest | electron-client/src/renderer/src/pages/todos/todo-panel.tsx:360-368 | the PATCH body carries the new status and the todo's own text and assignee |
| TodoPanel.FinishMove | electron-client/src/renderer/src/pages/todos/todo-panel.tsx:140-160 | a successful save keeps the new status and time and nothing else of the dragged todo changes; a failed one leaves the list exactly as it was when the drag ended; no other todo changes |
| TodoPanel.MoveAcceptedWhenInSync | electron-client/src/renderer/src/pages/todos/todo-panel.tsx:360-368 | when the server's copy has the status the client saw, the server accepts the save of every move the client allows |
| TodoPanel.ShouldHighlightColumn | electron-client/src/renderer/src/pages/todos/todo-panel.tsx:274-277 | a column lights up if and only if something is dragged over it from another status and the server would accept the change |
| TodoPanel.IsLocked | electron-client/src/renderer/src/pages/todos/todo-panel.tsx:301 | a card is locked exactly when some holder has an entry for its id |
| TodoPanel.LockedFlagMeansOthersLock | electron-client/src/renderer/src/pages/todos/todo-panel.tsx:301 | once the server's table is read, a card is locked if and only if someone under another name holds it |

## Left out

- The WebSocket transport, the `ws` library, JSON on the wire and `console` logging. A send is an appended `Send`. An unparsable frame is its own case.
- Non-string values in inbound fields, such as numbers or objects used as `todoId` or `collectionKey`. A field is a string or absent.
- Keys such as `constructor` that JavaScript objects inherit from their prototype. The maps in the model have no inherited keys.
- JWT signing and verification. `validateJwtToken` is a parameter that either yields an identity or fails.
- Prisma, Express routing and middleware. The todo table is an in-memory map. `updatedAt` is not touched by `TodoController.UpdateTodo`, because Prisma's automatic timestamp is not part of this model.
- TodoController.UpdateTodo: an assignee id that matches no user, which makes the database write fail, is not modelled.
- The React lifecycle. This covers re-running the effect when the collection key changes, `setTimeout`, notifications, `updateCollection`'s refetch and the modal dialogs other than their status list.
- The `useEffect` that resets the list from a refetched collection is one more `TodoPanel.SetTodos`; its timing relative to other renders is not modelled.
- Concurrency. The server is one event at a time, and an asynchronous save is its boolean outcome (`TodoPanel.FinishMove`).
- Timestamps are abstract integers rather than ISO strings compared as text.
- Numbers are integers, so `NaN` and `-0` are not modelled.
- `originalError` is kept as a description string.
- TodoPanel.SortByUpdatedAt: equal timestamps stay in list order. The source's comparator never answers 0, so the engine decides how ties are ordered; only sortedness and permutation are promised.
- Errors.BaseCustomError: the copy of the details is implicit in value semantics, so "later mutation does not affect it" holds by construction rather than by proof.
- Behaviours of the code kept as written:
  - the presence list keeps duplicate names;
  - connecting does not announce presence, only joining does;
  - closing does not resend the lock table.

## Findings

| source | as written | input that shows it | evidently intended | confidence | as-written member | corrected member |
|---|---|---|---|---|---|---|
| server/src/ws.ts:39-44 | `jwtToken && validateJwtToken(jwtToken)` is called without a `try`. `validateJwtToken` is `jwt.verify` (server/src/controllers/auth-controller.ts:65-67), which throws on a bad token. The `if (!user) ws.close()` branch is therefore reached only for a missing or empty token; the exception escapes the `connection` listener, and as an uncaught exception it can end the server process. | a connection with `?token=abc` where `abc` is not a valid JWT | an invalid token closes the socket like a missing one | medium, not executed | WsServer.HandleConnectAsWritten (shown by WsProperties.BadTokenEscapesAsWritten) | WsServer.HandleConnect (used by WsServer.Step) |
| electron-client/src/renderer/src/pages/todos/todo-panel.tsx:167-174 | `handleDragStart` is memoised with `[isConnected]` only, so it searches the list of the render in which `isConnected` last changed, while `handleDragEnd` (deps `[todos, updateCollection]`) searches the current list. | a todo created by another user, or brought in by a refetch, after the socket connected, then dragged: no `LOCK_TODO` is sent when the drag starts, but an `UNLOCK_TODO` is sent when it ends | the drag start searches the current list (deps including `todos`) | medium, not executed | TodoPanel.DragStartAsWritten (shown by TodoPanel.DragStartMissesNewTodos) | TodoPanel.DragStart (shown by TodoPanel.DragUnlocksWhatItLocked) |

=== FILE: asserts.dfy ===
/** The assertion helpers of server/src/utils/asserts.ts.

    A call that throws is modelled by a `Fail`/`Err` carrying the thrown error;
    the helpers decide on JavaScript truthiness, so their argument is a
    JavaScript value. */
module Asserts {
  import opened Wrappers
  import opened Errors
  import Text

  /** A JavaScript value, as far as truthiness can tell values apart.
      Numbers are integers here: `NaN` and `-0` are not modelled. */
  datatype JsValue =
    | Undefined
    | Null
    | Bool(b: bool)
    | Number(n: int)
    | Str(s: string)
    | Obj(tag: string)

  /** JavaScript's `!!value`. */
  predicate Truthy(v: JsValue)
  {
    match v
    case Undefined => false
    case Null => false
    case Bool(b) => b
    case Number(n) => n != 0
    case Str(s) => s != ""
    case Obj(_) => true
  }

  /** The `message = 'Assertion failed'` default parameter. */
  const DEFAULT_MESSAGE: string := "Assertion failed"

  function MessageOrDefault(message: Option<string>): (m: string)
    ensures message.Some? ==> m == message.value
    ensures message.None? ==> m == DEFAULT_MESSAGE
  {
    match message
    case Some(text) => text
    case None => DEFAULT_MESSAGE
  }

  /** `assert(value, message?, details?)`: throws a `ValidationError` exactly when `value` is falsy. */
  function Assert(value: JsValue, message: Option<string>, details: Option<Details>): (r: Outcome<CustomError>)
    ensures r.Pass? <==> Truthy(value)
    ensures r.Fail? ==> r.error.name == "ValidationError"
    ensures r.Fail? ==> r.error.message == MessageOrDefault(message)
    ensures r.Fail? && details.None? ==> r.error.details.clientHttpStatus == Has(BAD_REQUEST)
    ensures r.Fail? ==> r.error == ValidationError(MessageOrDefault(message), details)
    ensures r.Fail? && details.Some? && details.value.clientHttpStatus != Missing
            ==> r.error.details.clientHttpStatus == details.value.clientHttpStatus
    ensures r.Fail? && (details.None? || details.value.clientMessage == Missing)
            ==> r.error.details.clientMessage == Has(MessageOrDefault(message))
  {
    if Truthy(value) then Pass
    else Fail(ValidationError(MessageOrDefault(message), details))
  }

  /** `assertFound(value, message?, details?)`: like `assert`, but the status
      defaults to 404, and the caller's details still override that default. */
  function AssertFound(value: JsValue, message: Option<string>, details: Option<Details>): (r: Outcome<CustomError>)
    ensures r.Pass? <==> Truthy(value)
    ensures r.Fail? ==> r.error.name == "ValidationError" && r.error.message == MessageOrDefault(message)
    ensures r.Fail? && (details.None? || details.value.clientHttpStatus == Missing)
            ==> r.error.details.clientHttpStatus == Has(NOT_FOUND)
    ensures r.Fail? && details.Some? && details.value.clientHttpStatus != Missing
            ==> r.error.details.clientHttpStatus == details.value.clientHttpStatus
    ensures r.Fail? && (details.None? || details.value.clientMessage == Missing)
            ==> r.error.details.clientMessage == Has(MessageOrDefault(message))
    ensures r.Fail? && details.Some? && details.value.clientMessage != Missing
            ==> r.error.details.clientMessage == details.value.clientMessage
    ensures r.Fail? && details.Some? ==> r.error.details.originalError == details.value.originalError
    ensures r.Fail? && details.None? ==> r.error.details.originalError == Missing
    ensures r.Fail? ==> r.error == ValidationError(MessageOrDefault(message),
                                   Some(SpreadOptional(Details(Missing, Has(NOT_FOUND), Missing), details)))
  {
    if Truthy(value) then Pass
    else
      var withStatus := SpreadOptional(Details(Missing, Has(NOT_FOUND), Missing), details);
      Fail(ValidationError(MessageOrDefault(message), Some(withStatus)))
  }

  /** `ensureTruthy(value, message?, details?)`: hands the value back unchanged
      when it is truthy and throws what `assert` throws otherwise. */
  function EnsureTruthy(value: JsValue, message: Option<string>, details: Option<Details>): (r: Result<JsValue, CustomError>)
    ensures r.Ok? <==> Truthy(value)
    ensures r.Ok? ==> r.value == value
    ensures r.Err? ==> Assert(value, message, details) == Fail(r.error)
  {
    match Assert(value, message, details)
    case Pass => Ok(value)
    case Fail(e) => Err(e)
  }

  /** One element of a zod issue path: an object key or an array index. */
  datatype PathSegment = Key(name: string) | Index(i: nat)

  datatype Issue = Issue(path: seq<PathSegment>, message: string)

  /** The outcome of zod's `schema.safeParse(data)`. */
  datatype ParseResult = Parsed | Invalid(issues: seq<Issue>)

  /** `String(segment)` as used by `path.join('.')`. */
  function SegmentText(segment: PathSegment): string
  {
    match segment
    case Key(name) => name
    case Index(i) => Text.Decimal(i)
  }

  function PathText(path: seq<PathSegment>): (r: seq<string>)
    ensures |r| == |path|
    ensures forall i :: 0 <= i < |path| ==> r[i] == SegmentText(path[i])
  {
    seq(|path|, i requires 0 <= i < |path| => SegmentText(path[i]))
  }

  /** One line of the report: `Field <path joined by '.'> - <message>`. */
  function IssueLine(issue: Issue): string
  {
    "Field " + Text.Join(PathText(issue.path), ".") + " - " + issue.message
  }

  /** `zodErrorToString(error)`: one line per issue, joined with newlines. */
  function ZodErrorToString(issues: seq<Issue>): (report: string)
    ensures |issues| == 0 ==> report == ""
    ensures |issues| == 1 ==> report == IssueLine(issues[0])
    ensures |issues| > 1 ==> IssueLine(issues[0]) + "\n" <= report
  {
    Text.Join(seq(|issues|, i requires 0 <= i < |issues| => IssueLine(issues[i])), "\n")
  }

  /** An issue whose keys and message hold no newline. */
  predicate SingleLine(issue: Issue)
  {
    && '\n' !in issue.message
    && forall j :: 0 <= j < |issue.path| ==> '\n' !in SegmentText(issue.path[j])
  }

  /** Reading the report back line by line recovers exactly one line per issue,
      in order, as long as no key or message contains a newline. */
  lemma ZodErrorLines(issues: seq<Issue>)
    requires |issues| > 0
    requires forall i :: 0 <= i < |issues| ==> SingleLine(issues[i])
    ensures |Text.Split(ZodErrorToString(issues), '\n')| == |issues|
    ensures forall i :: 0 <= i < |issues| ==> Text.Split(ZodErrorToString(issues), '\n')[i] == IssueLine(issues[i])
  {
    var lines := seq(|issues|, i requires 0 <= i < |issues| => IssueLine(issues[i]));
    forall i | 0 <= i < |issues|
      ensures '\n' !in lines[i]
    {
      var path := PathText(issues[i].path);
      Text.JoinAvoids(path, ".", '\n');
      assert lines[i] == "Field " + Text.Join(path, ".") + " - " + issues[i].message;
    }
    Text.SplitJoin(lines, '\n');
  }

  /** `assertSchema(data, schema)`, with the schema abstracted to its `safeParse`:
      throws a `ValidationError` whose message is the issue report exactly when
      the data does not parse. */
  function AssertSchema<D>(data: D, safeParse: D -> ParseResult): (r: Outcome<CustomError>)
    ensures r.Pass? <==> safeParse(data).Parsed?
    ensures r.Fail? ==> r.error.name == "ValidationError"
    ensures r.Fail? ==> r.error.message == ZodErrorToString(safeParse(data).issues)
    ensures r.Fail? ==> r.error.details.clientHttpStatus == Has(BAD_REQUEST)
  {
    match safeParse(data)
    case Parsed => Pass
    case Invalid(issues) => Fail(ValidationError(ZodErrorToString(issues), None))
  }
}

=== FILE: collaboration.dfy ===
/** The client half of the protocol: the `useTodoCollaboration` hook
    (electron-client/src/renderer/src/utils/collaboration.ts) as a state and
    its handlers. Sending is appending to `sent`, the stream the server reads. */
module Collaboration {
  import opened Wrappers
  import opened Todos
  import WsServer

  /** `WebSocket.readyState`. */
  datatype ReadyState = CONNECTING | OPEN | CLOSING | CLOSED

  /** The events the hook sends. */
  datatype ClientEvent =
    | JoinCollection(collectionKey: string)
    | LockTodo(todoId: string, collectionKey: string)
    | UnlockTodo(todoId: string, collectionKey: string)

  /** A server message as the hook reads it; any other `type` is `Other`. */
  datatype ServerMessage =
    | TodoUpdatedMsg(todo: Todo, action: Action)
    | LocksUpdatedMsg(locks: map<string, string>)
    | ActiveUsersUpdatedMsg(users: seq<string>)
    | Other(kind: string)

  /** A raw frame: `JSON.parse` fails, or yields a message. */
  datatype ServerFrame = Garbled | Decoded(message: ServerMessage)

  /** The hook's state: its collection, the socket in `wsRef`, the three React
      states it returns, and everything sent so far. */
  datatype Hook = Hook(
    collectionKey: string,
    socket: Option<ReadyState>,
    isConnected: bool,
    lockedTodos: map<string, string>,
    activeUsers: seq<string>,
    sent: seq<ClientEvent>)

  /** The effect opens a socket for the collection; nothing is known yet. */
  function Mount(collectionKey: string): (h: Hook)
    ensures h.collectionKey == collectionKey && h.socket == Some(CONNECTING)
    ensures !h.isConnected && h.lockedTodos == map[] && h.activeUsers == [] && h.sent == []
  {
    Hook(collectionKey, Some(CONNECTING), false, map[], [], [])
  }

  /** `sendEvent(event)`: sent when the socket is open, silently dropped otherwise. */
  function SendEvent(h: Hook, event: ClientEvent): (r: Hook)
    ensures h.socket == Some(OPEN) ==> r == h.(sent := h.sent + [event])
    ensures h.socket != Some(OPEN) ==> r == h
  {
    if h.socket == Some(OPEN) then h.(sent := h.sent + [event]) else h
  }

  /** `ws.onopen`: connected, then join the hook's collection. A socket opens
      only from CONNECTING. */
  function OnOpen(h: Hook): (r: Hook)
    ensures h.socket == Some(CONNECTING) ==>
      r == h.(socket := Some(OPEN), isConnected := true, sent := h.sent + [JoinCollection(h.collectionKey)])
    ensures h.socket != Some(CONNECTING) ==> r == h
  {
    if h.socket == Some(CONNECTING) then
      SendEvent(h.(socket := Some(OPEN), isConnected := true), JoinCollection(h.collectionKey))
    else h
  }

  /** `ws.onclose`. */
  function OnClose(h: Hook): (r: Hook)
    ensures r == h.(socket := Some(CLOSED), isConnected := false)
  {
    h.(socket := Some(CLOSED), isConnected := false)
  }

  /** The effect's cleanup, `ws.close()`: the socket starts closing. */
  function Unmount(h: Hook): (r: Hook)
    ensures h.socket == Some(CONNECTING) || h.socket == Some(OPEN) ==> r == h.(socket := Some(CLOSING))
    ensures !(h.socket == Some(CONNECTING) || h.socket == Some(OPEN)) ==> r == h
  {
    if h.socket == Some(CONNECTING) || h.socket == Some(OPEN) then h.(socket := Some(CLOSING)) else h
  }

  /** `ws.onmessage`: returns the new hook state and the change handed to
      `onTodoChange`, if any. Lock and presence messages replace the stored
      value outright; unparsable frames and unknown types change nothing. */
  function OnMessage(h: Hook, frame: ServerFrame): (r: (Hook, Option<(Todo, Action)>))
    ensures frame.Garbled? ==> r == (h, None)
    ensures frame.Decoded? && frame.message.Other? ==> r == (h, None)
    ensures frame.Decoded? && frame.message.TodoUpdatedMsg? ==>
      r == (h, Some((frame.message.todo, frame.message.action)))
    ensures frame.Decoded? && frame.message.LocksUpdatedMsg? ==>
      r.1.None? && r.0 == h.(lockedTodos := frame.message.locks)
    ensures frame.Decoded? && frame.message.ActiveUsersUpdatedMsg? ==>
      r.1.None? && r.0 == h.(activeUsers := frame.message.users)
  {
    match frame
    case Garbled => (h, None)
    case Decoded(m) =>
      match m
      case TodoUpdatedMsg(todo, action) => (h, Some((todo, action)))
      case LocksUpdatedMsg(locks) => (h.(lockedTodos := locks), None)
      case ActiveUsersUpdatedMsg(users) => (h.(activeUsers := users), None)
      case Other(_) => (h, None)
  }

  /** `lockTodo(todoId)`. */
  function RequestLock(h: Hook, todoId: string): (r: Hook)
    ensures h.socket == Some(OPEN) ==> r.sent == h.sent + [LockTodo(todoId, h.collectionKey)]
    ensures h.socket == Some(OPEN) ==> r == h.(sent := h.sent + [LockTodo(todoId, h.collectionKey)])
    ensures h.socket != Some(OPEN) ==> r == h
  {
    SendEvent(h, LockTodo(todoId, h.collectionKey))
  }

  /** `unlockTodo(todoId)`. */
  function RequestUnlock(h: Hook, todoId: string): (r: Hook)
    ensures h.socket == Some(OPEN) ==> r.sent == h.sent + [UnlockTodo(todoId, h.collectionKey)]
    ensures h.socket == Some(OPEN) ==> r == h.(sent := h.sent + [UnlockTodo(todoId, h.collectionKey)])
    ensures h.socket != Some(OPEN) ==> r == h
  {
    SendEvent(h, UnlockTodo(todoId, h.collectionKey))
  }

  // ------------------------------------------------------------ the wire

  /** The JSON object a client event becomes, as the server parses it. */
  function Encode(event: ClientEvent): WsServer.Incoming
  {
    match event
    case JoinCollection(key) => WsServer.Incoming(WsServer.JOIN_COLLECTION, None, Some(key))
    case LockTodo(todoId, key) => WsServer.Incoming(WsServer.LOCK_TODO, Some(todoId), Some(key))
    case UnlockTodo(todoId, key) => WsServer.Incoming(WsServer.UNLOCK_TODO, Some(todoId), Some(key))
  }

  /** The server decodes every client event back into the request it stands
      for, as long as the ids it carries are not empty; with an empty id the
      server ignores it. */
  lemma EncodeDecode(event: ClientEvent)
    ensures match event
      case JoinCollection(key) =>
        WsServer.Decode(Encode(event)) == (if key != "" then Some(WsServer.Join(key)) else None)
      case LockTodo(todoId, key) =>
        WsServer.Decode(Encode(event)) == (if todoId != "" && key != "" then Some(WsServer.Lock(todoId, key)) else None)
      case UnlockTodo(todoId, key) =>
        WsServer.Decode(Encode(event)) == (if todoId != "" && key != "" then Some(WsServer.Unlock(todoId, key)) else None)
  {
  }

  /** A server message as the hook reads it. */
  function Read(m: WsServer.Outgoing): ServerMessage
  {
    match m
    case ActiveUsersUpdated(users) => ActiveUsersUpdatedMsg(users)
    case LocksUpdated(locks) => LocksUpdatedMsg(locks)
    case TodoUpdated(todo, action) => TodoUpdatedMsg(todo, action)
  }

  /** After reading the lock table the server sent it, the client's
      `lockedTodos` holds every lock of the collection except its own. */
  lemma ClientSeesOthersLocks(h: Hook, me: WsServer.Client, table: WsServer.Locks)
    ensures var r := OnMessage(h, Decoded(Read(WsServer.Render(WsServer.LockTable(table), me)))).0;
      && (forall id :: id in r.lockedTodos <==> id in table && table[id] != me.userName)
      && (forall id :: id in r.lockedTodos ==> r.lockedTodos[id] == table[id])
  {
  }

  /** Lock tables are not merged: of two consecutive ones only the second counts. */
  lemma LocksLastWins(h: Hook, first: map<string, string>, second: map<string, string>)
    ensures OnMessage(OnMessage(h, Decoded(LocksUpdatedMsg(first))).0, Decoded(LocksUpdatedMsg(second)))
            == OnMessage(h, Decoded(LocksUpdatedMsg(second)))
  {
  }

  // --------------------------------------------------------------- traces

  /** What can happen to a mounted hook. */
  datatype Input =
    | Opened
    | ClosedByServer
    | Unmounted
    | Frame(frame: ServerFrame)
    | Lock(todoId: string)
    | Unlock(todoId: string)

  function Apply(h: Hook, input: Input): Hook
  {
    match input
    case Opened => OnOpen(h)
    case ClosedByServer => OnClose(h)
    case Unmounted => Unmount(h)
    case Frame(frame) => OnMessage(h, frame).0
    case Lock(todoId) => RequestLock(h, todoId)
    case Unlock(todoId) => RequestUnlock(h, todoId)
  }

  function Run(h: Hook, inputs: seq<Input>): Hook
    decreases |inputs|
  {
    if |inputs| == 0 then h else Run(Apply(h, inputs[0]), inputs[1..])
  }

  /** What every hook reached from `Mount(key)` satisfies. */
  predicate JoinsFirst(h: Hook, key: string)
  {
    && h.collectionKey == key
    && (h.socket == Some(CONNECTING) ==> h.sent == [])
    && (h.socket == Some(OPEN) ==> h.sent != [])
    && (h.sent != [] ==> h.sent[0] == JoinCollection(key))
  }

  /** Whatever happens, the first event a hook ever sends is the join of its own
      collection: requests made before the socket opens are dropped, not queued. */
  lemma {:induction false} FirstSentIsJoin(key: string, inputs: seq<Input>)
    ensures var h := Run(Mount(key), inputs);
      h.sent != [] ==> h.sent[0] == JoinCollection(key)
  {
    RunKeepsJoinsFirst(Mount(key), key, inputs);
  }

  lemma {:induction false} RunKeepsJoinsFirst(h: Hook, key: string, inputs: seq<Input>)
    requires JoinsFirst(h, key)
    ensures JoinsFirst(Run(h, inputs), key)
    decreases |inputs|
  {
    if |inputs| > 0 {
      var next := Apply(h, inputs[0]);
      assert JoinsFirst(next, key) by {
        match inputs[0] {
          case Opened =>
          case ClosedByServer =>
          case Unmounted =>
          case Frame(frame) =>
          case Lock(todoId) =>
            if h.socket == Some(OPEN) { assert (h.sent + [LockTodo(todoId, key)])[0] == h.sent[0]; }
          case Unlock(todoId) =>
            if h.socket == Some(OPEN) { assert (h.sent + [UnlockTodo(todoId, key)])[0] == h.sent[0]; }
        }
      }
      RunKeepsJoinsFirst(next, key, inputs[1..]);
    }
  }
}

=== FILE: error_handler.dfy ===
/** The response chosen by `expressErrorHandler` (server/src/utils/error-handler.ts). */
module ErrorHandler {
  import opened Wrappers
  import opened Errors

  /** A thrown value reaching the handler: one of the custom errors, or any other `Error`.
      `stack` is the runtime-captured stack trace, if any. */
  datatype Thrown =
    | Custom(error: CustomError, stack: Option<string>)
    | Plain(message: string, stack: Option<string>)
  {
    function Message(): string
    {
      match this
      case Custom(e, _) => e.message
      case Plain(m, _) => m
    }
  }

  /** The JSON body `{ success, error, stack }` together with the HTTP status. */
  datatype ErrorResponse = ErrorResponse(status: int, success: bool, error: string, stack: Option<string>)

  const FALLBACK_ERROR: string := "Internal Server Error"

  /** `expressErrorHandler(err)` with `process.env.NODE_ENV` passed in. */
  function HandleError(err: Thrown, nodeEnv: Option<string>): (r: ErrorResponse)
    ensures !r.success
    ensures err.Custom? && err.error.details.clientHttpStatus.Has? && err.error.details.clientHttpStatus.value != 0
            ==> r.status == err.error.details.clientHttpStatus.value
    ensures err.Custom? && !(err.error.details.clientHttpStatus.Has? && err.error.details.clientHttpStatus.value != 0)
            ==> r.status == INTERNAL_SERVER_ERROR
    ensures err.Plain? ==> r.status == INTERNAL_SERVER_ERROR
    ensures err.Message() != "" ==> r.error == err.Message()
    ensures err.Message() == "" ==> r.error == FALLBACK_ERROR
    ensures nodeEnv == Some("production") ==> r.stack.None?
    ensures nodeEnv != Some("production") ==> r.stack == err.stack
  {
    var status :=
      match err
      case Custom(e, _) =>
        (match e.details.clientHttpStatus
         case Has(code) => if code != 0 then code else INTERNAL_SERVER_ERROR
         case _ => INTERNAL_SERVER_ERROR)
      case Plain(_, _) => INTERNAL_SERVER_ERROR;
    var message := if err.Message() != "" then err.Message() else FALLBACK_ERROR;
    var stack := if nodeEnv != Some("production") then err.stack else None;
    ErrorResponse(status, false, message, stack)
  }

  /** A `ValidationError` built without details answers 400 with its own message. */
  lemma ValidationErrorAnswers400(message: string, stack: Option<string>, nodeEnv: Option<string>)
    requires message != ""
    ensures HandleError(Custom(ValidationError(message, None), stack), nodeEnv).status == BAD_REQUEST
    ensures HandleError(Custom(ValidationError(message, None), stack), nodeEnv).error == message
  {
  }

  /** A detail object that sets `clientHttpStatus: undefined` explicitly wipes the
      400 default by the spread, and the handler then answers 500. */
  lemma ExplicitUndefinedStatusAnswers500(message: string, stack: Option<string>, nodeEnv: Option<string>)
    ensures HandleError(Custom(ValidationError(message, Some(Details(Missing, Undefined, Missing))), stack), nodeEnv).status
            == INTERNAL_SERVER_ERROR
  {
  }

  /** A `ServerError` answers 500 and, like every error, reports its real message
      in the `error` field: the fixed client message is not what is sent. */
  lemma ServerErrorAnswers500(message: string, stack: Option<string>, nodeEnv: Option<string>)
    ensures HandleError(Custom(ServerError(message, None), stack), nodeEnv).status == INTERNAL_SERVER_ERROR
    ensures message != "" ==> HandleError(Custom(ServerError(message, None), stack), nodeEnv).error == message
  {
  }
}

=== FILE: errors.dfy ===
/** The server's custom error classes (server/src/utils/errors.ts) as values.

    An error is a record of its `name`, `message` and `details`. The details are
    an object literal whose optional properties may be missing, present with the
    value `undefined`, or present with a value; the subclasses build them by
    spreading the caller's details over their defaults. */
module Errors {
  import opened Wrappers

  /** The `HttpStatusCode` enumeration. */
  const BAD_REQUEST: int := 400
  const UNAUTHORIZED: int := 401
  const FORBIDDEN: int := 403
  const NOT_FOUND: int := 404
  const INTERNAL_SERVER_ERROR: int := 500

  /** `ServerError`'s fixed message for the client. */
  const OOPS: string := "Oops, something went wrong"

  /** One optional property of an object literal. */
  datatype Prop<+T> = Missing | Undefined | Has(value: T)

  /** `CustomErrorDetails`; `originalError` is kept as a description only. */
  datatype Details = Details(
    originalError: Prop<string>,
    clientHttpStatus: Prop<int>,
    clientMessage: Prop<string>)

  /** `{}` */
  const NoDetails: Details := Details(Missing, Missing, Missing)

  datatype CustomError = CustomError(name: string, message: string, details: Details)

  /** One property of `{ ...base, ...top }`: the later spread wins whenever it
      has the property at all, even with the value `undefined`. */
  function Over<T>(base: Prop<T>, top: Prop<T>): (r: Prop<T>)
    ensures top != Missing ==> r == top
    ensures top == Missing ==> r == base
  {
    if top.Missing? then base else top
  }

  /** `{ ...base, ...top }` for details records. */
  function Spread(base: Details, top: Details): (r: Details)
    ensures r.originalError == Over(base.originalError, top.originalError)
    ensures r.clientHttpStatus == Over(base.clientHttpStatus, top.clientHttpStatus)
    ensures r.clientMessage == Over(base.clientMessage, top.clientMessage)
  {
    Details(
      Over(base.originalError, top.originalError),
      Over(base.clientHttpStatus, top.clientHttpStatus),
      Over(base.clientMessage, top.clientMessage))
  }

  /** `{ ...base, ...details }` where `details` may be `undefined`, which spreads nothing. */
  function SpreadOptional(base: Details, details: Option<Details>): (r: Details)
    ensures details.None? ==> r == base
    ensures details.Some? ==> r == Spread(base, details.value)
  {
    match details
    case None => base
    case Some(d) => Spread(base, d)
  }

  /** `new BaseCustomError(message, details)`: the details are copied, so the
      stored record is exactly the one passed in (value semantics makes later
      changes to the caller's object invisible). */
  function BaseCustomError(message: string, details: Details): (e: CustomError)
    ensures e.name == "CustomError"
    ensures e.message == message
    ensures e.details == details
  {
    CustomError("CustomError", message, details)
  }

  /** `new ValidationError(message, details?)`: status 400 and the message as the
      client message unless the caller's details say otherwise. */
  function ValidationError(message: string, details: Option<Details>): (e: CustomError)
    ensures e.name == "ValidationError"
    ensures e.message == message
    ensures details.None? ==> e.details == Details(Missing, Has(BAD_REQUEST), Has(message))
    ensures details.Some? ==>
      && e.details.originalError == details.value.originalError
      && (details.value.clientHttpStatus == Missing ==> e.details.clientHttpStatus == Has(BAD_REQUEST))
      && (details.value.clientHttpStatus != Missing ==> e.details.clientHttpStatus == details.value.clientHttpStatus)
      && (details.value.clientMessage == Missing ==> e.details.clientMessage == Has(message))
      && (details.value.clientMessage != Missing ==> e.details.clientMessage == details.value.clientMessage)
  {
    var merged := SpreadOptional(Details(Missing, Has(BAD_REQUEST), Has(message)), details);
    BaseCustomError(message, merged).(name := "ValidationError")
  }

  /** `new ServerError(message, details?)`: status 500 and a fixed client message,
      so the real message is never shown to the client unless overridden. */
  function ServerError(message: string, details: Option<Details>): (e: CustomError)
    ensures e.name == "ServerError"
    ensures e.message == message
    ensures details.None? ==> e.details == Details(Missing, Has(INTERNAL_SERVER_ERROR), Has(OOPS))
    ensures details.Some? ==>
      && e.details.originalError == details.value.originalError
      && (details.value.clientHttpStatus == Missing ==> e.details.clientHttpStatus == Has(INTERNAL_SERVER_ERROR))
      && (details.value.clientHttpStatus != Missing ==> e.details.clientHttpStatus == details.value.clientHttpStatus)
      && (details.value.clientMessage == Missing ==> e.details.clientMessage == Has(OOPS))
      && (details.value.clientMessage != Missing ==> e.details.clientMessage == details.value.clientMessage)
  {
    var merged := SpreadOptional(Details(Missing, Has(INTERNAL_SERVER_ERROR), Has(OOPS)), details);
    BaseCustomError(message, merged).(name := "ServerError")
  }
}

=== FILE: seqs.dfy ===
/** Searching sequences, as JavaScript's `Array.prototype.findIndex` does. */
module Seqs {
  import opened Wrappers

  /** The position of the first element satisfying `p`, if any. */
  function FirstIndex<T>(s: seq<T>, p: T -> bool): (r: Option<nat>)
    ensures r.Some? ==> r.value < |s| && p(s[r.value])
    ensures r.Some? ==> forall j :: 0 <= j < r.value ==> !p(s[j])
    ensures r.None? ==> forall j :: 0 <= j < |s| ==> !p(s[j])
    decreases |s|
  {
    if |s| == 0 then None
    else if p(s[0]) then Some(0)
    else
      match FirstIndex(s[1..], p)
      case None => None
      case Some(j) => Some(j + 1)
  }
}

=== FILE: text.dfy ===
/** String helpers with the semantics of JavaScript's `Array.prototype.join`,
    `String.prototype.split` (one-character separator) and number-to-string. */
module Text {

  /** `parts.join(sep)`: an empty array joins to the empty string. */
  function Join(parts: seq<string>, sep: string): string
  {
    if |parts| == 0 then ""
    else if |parts| == 1 then parts[0]
    else parts[0] + sep + Join(parts[1..], sep)
  }

  /** `s.split(c)`: always at least one piece; `"".split(c)` is `[""]`. */
  function Split(s: string, c: char): (pieces: seq<string>)
    ensures |pieces| > 0
    ensures forall i :: 0 <= i < |pieces| ==> c !in pieces[i]
    decreases |s|
  {
    if |s| == 0 then [""]
    else if s[0] == c then [""] + Split(s[1..], c)
    else
      var rest := Split(s[1..], c);
      [[s[0]] + rest[0]] + rest[1..]
  }

  /** The decimal digits of `n`, as `String(n)` renders a non-negative integer. */
  function Decimal(n: nat): (digits: string)
    ensures |digits| > 0
    ensures forall i :: 0 <= i < |digits| ==> '0' <= digits[i] <= '9'
    ensures n < 10 <==> |digits| == 1
  {
    if n < 10 then [Digit(n)] else Decimal(n / 10) + [Digit(n % 10)]
  }

  function Digit(d: nat): (ch: char)
    requires d < 10
    ensures '0' <= ch <= '9'
  {
    "0123456789"[d]
  }

  /** Splitting a piece that does not contain the separator gives it back whole. */
  lemma {:induction false} SplitWithoutSeparator(s: string, c: char)
    requires c !in s
    ensures Split(s, c) == [s]
    decreases |s|
  {
    if |s| > 0 {
      assert s[0] != c;
      assert c !in s[1..];
      SplitWithoutSeparator(s[1..], c);
      assert [s[0]] + s[1..] == s;
    }
  }

  /** Splitting at the first separator peels off the piece in front of it. */
  lemma {:induction false} SplitAtFirstSeparator(p: string, c: char, rest: string)
    requires c !in p
    ensures Split(p + [c] + rest, c) == [p] + Split(rest, c)
    decreases |p|
  {
    var s := p + [c] + rest;
    if |p| == 0 {
      assert s == [c] + rest;
      assert s[1..] == rest;
    } else {
      assert s[0] == p[0];
      assert s[1..] == p[1..] + [c] + rest;
      assert c !in p[1..];
      SplitAtFirstSeparator(p[1..], c, rest);
      assert [p[0]] + p[1..] == p;
    }
  }

  /** Joining pieces free of the separator and splitting again is the identity. */
  lemma {:induction false} SplitJoin(parts: seq<string>, c: char)
    requires |parts| > 0
    requires forall i :: 0 <= i < |parts| ==> c !in parts[i]
    ensures Split(Join(parts, [c]), c) == parts
    decreases |parts|
  {
    if |parts| == 1 {
      SplitWithoutSeparator(parts[0], c);
    } else {
      SplitJoin(parts[1..], c);
      SplitAtFirstSeparator(parts[0], c, Join(parts[1..], [c]));
      assert [parts[0]] + parts[1..] == parts;
    }
  }

  /** A character that occurs neither in the pieces nor in the separator does not occur in the join. */
  lemma {:induction false} JoinAvoids(parts: seq<string>, sep: string, c: char)
    requires c !in sep
    requires forall i :: 0 <= i < |parts| ==> c !in parts[i]
    ensures c !in Join(parts, sep)
    decreases |parts|
  {
    if |parts| > 1 {
      JoinAvoids(parts[1..], sep, c);
    }
  }
}

=== FILE: todo_controller.dfy ===
/** The status rules of server/src/controllers/todo-controller.ts and the guard
    order of `updateTodo`, over an in-memory stand-in for the todo table. */
module TodoController {
  import opened Wrappers
  import opened Errors
  import opened Todos
  import Asserts

  /** `statusChangeMap`: the statuses each status may move to, besides itself. */
  function StatusChangeMap(from: Status): (targets: seq<Status>)
    ensures from !in targets
    ensures forall to :: to in targets <==> (from, to) in AllowedMoves
  {
    match from
    case TODO => [ONGOING]
    case ONGOING => [DONE, TODO]
    case DONE => [ONGOING]
  }

  /** The permitted moves between different statuses: one step along TODO - ONGOING - DONE. */
  const AllowedMoves: set<(Status, Status)> :=
    {(TODO, ONGOING), (ONGOING, DONE), (ONGOING, TODO), (DONE, ONGOING)}

  /** `isValidStatusChange(from, to)`. */
  function IsValidStatusChange(from: Status, to: Status): (ok: bool)
    ensures ok <==> from == to || (from, to) in AllowedMoves
    ensures from == to ==> ok
    ensures (from, to) == (TODO, DONE) || (from, to) == (DONE, TODO) ==> !ok
  {
    if from == to then true else to in StatusChangeMap(from)
  }

  /** The relation is symmetric: every move can be undone. */
  lemma StatusChangeSymmetric(a: Status, b: Status)
    ensures IsValidStatusChange(a, b) == IsValidStatusChange(b, a)
  {
  }

  /** `UpdateTodoBody`. */
  datatype UpdateBody = UpdateBody(text: string, status: Status, assignedTo: string)

  /** The todo table, keyed by id. */
  type Store = map<string, Todo>

  const TODO_NOT_FOUND: string := "Todo not found"
  const INVALID_STATUS_CHANGE: string := "Invalid status change"

  /** `updateTodo(id, body)`: look the todo up, throw if it is missing, throw if
      the status change is not allowed, and only then write the new text, status
      and assignee. Returns the table after the call and the outcome. */
  function UpdateTodo(store: Store, id: string, body: UpdateBody): (r: (Store, Result<Todo, CustomError>))
    ensures r.1.Err? ==> r.0 == store
    ensures id !in store ==> r.1.Err? && r.1.error.message == TODO_NOT_FOUND
                             && r.1.error.details.clientHttpStatus == Has(NOT_FOUND)
    ensures id in store && !IsValidStatusChange(store[id].status, body.status)
            ==> r.1.Err? && r.1.error.message == INVALID_STATUS_CHANGE
                && r.1.error.details.clientHttpStatus == Has(BAD_REQUEST)
    ensures r.1.Ok? <==> id in store && IsValidStatusChange(store[id].status, body.status)
    ensures r.1.Ok? ==>
      && r.1.value == store[id].(text := body.text, status := body.status, assignedTo := body.assignedTo)
      && r.0 == store[id := r.1.value]
  {
    var found := if id in store then Asserts.Obj(id) else Asserts.Null;
    match Asserts.AssertFound(found, Some(TODO_NOT_FOUND), None)
    case Fail(e) => (store, Err(e))
    case Pass =>
      var todo := store[id];
      match Asserts.Assert(Asserts.Bool(IsValidStatusChange(todo.status, body.status)), Some(INVALID_STATUS_CHANGE), None)
      case Fail(e) => (store, Err(e))
      case Pass =>
        var updated := todo.(text := body.text, status := body.status, assignedTo := body.assignedTo);
        (store[id := updated], Ok(updated))
  }
}

=== FILE: todo_panel.dfy ===
/** The board logic of electron-client/src/renderer/src/pages/todos/todo-panel.tsx:
    the client's copy of the status rules, the list reducer fed by the
    collaboration hook, the grouping of todos into sorted columns, and the
    drag-end decision with its optimistic update and revert. */
module TodoPanel {
  import opened Wrappers
  import opened Todos
  import TodoController
  import Collaboration
  import WsServer
  import Seqs

  // ------------------------------------------------------ status transitions

  /** `allowedStatusTransitions`. */
  function AllowedStatusTransitions(from: Status): (targets: seq<Status>)
    ensures from !in targets
    ensures forall to :: to in targets <==> from != to && TodoController.IsValidStatusChange(from, to)
  {
    match from
    case TODO => [ONGOING]
    case ONGOING => [TODO, DONE]
    case DONE => [ONGOING]
  }

  /** The client table lists, for every status, the same targets as the
      server's `statusChangeMap` (the order differs for ONGOING), so the
      optimistic check and the authoritative check agree. */
  lemma ClientTableMatchesServer(from: Status, to: Status)
    ensures to in AllowedStatusTransitions(from) <==> to in TodoController.StatusChangeMap(from)
    ensures to in AllowedStatusTransitions(from) <==> from != to && TodoController.IsValidStatusChange(from, to)
  {
  }

  /** The status choices of the edit modal (todo-modals.tsx): the allowed
      targets plus the current status. */
  function ModalStatuses(from: Status): (choices: seq<Status>)
    ensures forall to :: to in choices <==> TodoController.IsValidStatusChange(from, to)
  {
    AllowedStatusTransitions(from) + [from]
  }

  // ------------------------------------------------------------ the reducer

  /** `onTodoChange(todo, action)` applied to the current list. */
  function OnTodoChange(current: seq<Todo>, todo: Todo, action: Action): (r: seq<Todo>)
    ensures action == Create ==> |r| == |current| + 1 && r[..|current|] == current && r[|current|] == todo
    ensures action == Update ==> |r| == |current|
    ensures action == Update ==> forall i :: 0 <= i < |r| ==>
      (current[i].id == todo.id ==> r[i] == todo) && (current[i].id != todo.id ==> r[i] == current[i])
    ensures action == Delete ==> forall t :: t in r <==> t in current && t.id != todo.id
  {
    match action
    case Create => current + [todo]
    case Update => ReplaceById(current, todo)
    case Delete => RemoveById(current, todo.id)
  }

  /** `current.map((t) => (t.id === todo.id ? todo : t))`. */
  function ReplaceById(current: seq<Todo>, todo: Todo): (r: seq<Todo>)
    ensures |r| == |current|
    ensures forall i :: 0 <= i < |r| ==> r[i] == if current[i].id == todo.id then todo else current[i]
  {
    seq(|current|, i requires 0 <= i < |current| => if current[i].id == todo.id then todo else current[i])
  }

  /** `current.filter((t) => t.id !== id)`. */
  function RemoveById(current: seq<Todo>, id: string): (r: seq<Todo>)
    ensures forall t :: t in r <==> t in current && t.id != id
    decreases |current|
  {
    if |current| == 0 then []
    else
      var rest := RemoveById(current[1..], id);
      assert current == [current[0]] + current[1..];
      if current[0].id == id then rest else [current[0]] + rest
  }

  /** Deletion keeps every other todo as many times as it occurred and drops
      every copy of the deleted id. */
  lemma {:induction false} RemoveByIdCounts(current: seq<Todo>, id: string, t: Todo)
    ensures t.id != id ==> multiset(RemoveById(current, id))[t] == multiset(current)[t]
    ensures t.id == id ==> multiset(RemoveById(current, id))[t] == 0
    decreases |current|
  {
    if |current| > 0 {
      RemoveByIdCounts(current[1..], id, t);
      assert current == [current[0]] + current[1..];
      var head := if current[0] == t then 1 else 0;
      assert multiset(current)[t] == head + multiset(current[1..])[t];
      var rest := RemoveById(current[1..], id);
      if current[0].id == id {
        assert RemoveById(current, id) == rest;
      } else {
        assert RemoveById(current, id) == [current[0]] + rest;
        assert multiset(RemoveById(current, id))[t] == head + multiset(rest)[t];
      }
    }
  }

  /** Deletion keeps the relative order of what remains: removing from a
      concatenation removes from each part. */
  lemma {:induction false} RemoveByIdAppend(a: seq<Todo>, b: seq<Todo>, id: string)
    ensures RemoveById(a + b, id) == RemoveById(a, id) + RemoveById(b, id)
    decreases |a|
  {
    if |a| == 0 {
      assert a + b == b;
    } else {
      assert (a + b)[0] == a[0];
      assert (a + b)[1..] == a[1..] + b;
      RemoveByIdAppend(a[1..], b, id);
    }
  }

  /** Replaying an update or a delete changes nothing more. */
  lemma ReducerIdempotent(current: seq<Todo>, todo: Todo)
    ensures OnTodoChange(OnTodoChange(current, todo, Update), todo, Update) == OnTodoChange(current, todo, Update)
    ensures OnTodoChange(OnTodoChange(current, todo, Delete), todo, Delete) == OnTodoChange(current, todo, Delete)
  {
    RemoveTwice(current, todo.id);
  }

  lemma {:induction false} RemoveTwice(current: seq<Todo>, id: string)
    ensures RemoveById(RemoveById(current, id), id) == RemoveById(current, id)
    decreases |current|
  {
    if |current| > 0 {
      RemoveTwice(current[1..], id);
      if current[0].id != id {
        var rest := RemoveById(current[1..], id);
        assert ([current[0]] + rest)[0] == current[0];
        assert ([current[0]] + rest)[1..] == rest;
      }
    }
  }

  /** A `TODO_UPDATED` frame read by the hook changes the list exactly as
      `onTodoChange` does with the todo and action it carries; other frames
      leave the list alone. */
  function ApplyFrame(todos: seq<Todo>, h: Collaboration.Hook, frame: Collaboration.ServerFrame): (r: (seq<Todo>, Collaboration.Hook))
    ensures frame.Decoded? && frame.message.TodoUpdatedMsg? ==>
      r == (OnTodoChange(todos, frame.message.todo, frame.message.action), h)
    ensures !(frame.Decoded? && frame.message.TodoUpdatedMsg?) ==> r.0 == todos
  {
    var (h', change) := Collaboration.OnMessage(h, frame);
    match change
    case Some((todo, action)) => (OnTodoChange(todos, todo, action), h')
    case None => (todos, h')
  }

  // ---------------------------------------------------------------- columns

  /** The todos of one status, in list order (`todosMap[todo.status].push(todo)`). */
  function OfStatus(todos: seq<Todo>, status: Status): (r: seq<Todo>)
    ensures forall t :: t in r <==> t in todos && t.status == status
    ensures |r| <= |todos|
    decreases |todos|
  {
    if |todos| == 0 then []
    else
      var rest := OfStatus(todos[1..], status);
      assert todos == [todos[0]] + todos[1..];
      if todos[0].status == status then [todos[0]] + rest else rest
  }

  /** A bucket holds each todo of its status as many times as the list does,
      and nothing of another status. */
  lemma {:induction false} OfStatusMultiplicity(todos: seq<Todo>, status: Status, t: Todo)
    ensures t.status == status ==> multiset(OfStatus(todos, status))[t] == multiset(todos)[t]
    ensures t.status != status ==> multiset(OfStatus(todos, status))[t] == 0
    decreases |todos|
  {
    if |todos| > 0 {
      OfStatusMultiplicity(todos[1..], status, t);
      assert todos == [todos[0]] + todos[1..];
      var head := if todos[0] == t then 1 else 0;
      assert multiset(todos)[t] == head + multiset(todos[1..])[t];
      var rest := OfStatus(todos[1..], status);
      if todos[0].status == status {
        assert OfStatus(todos, status) == [todos[0]] + rest;
        assert multiset(OfStatus(todos, status))[t] == head + multiset(rest)[t];
      } else {
        assert OfStatus(todos, status) == rest;
      }
    }
  }

  /** Ordered by non-decreasing `updatedAt`. */
  predicate SortedByUpdatedAt(xs: seq<Todo>)
  {
    forall i, j :: 0 <= i < j < |xs| ==> xs[i].updatedAt <= xs[j].updatedAt
  }

  /** Inserts `t` before the first element updated later than it. */
  function Insert(t: Todo, xs: seq<Todo>): (r: seq<Todo>)
    requires SortedByUpdatedAt(xs)
    ensures SortedByUpdatedAt(r)
    ensures multiset(r) == multiset(xs) + multiset{t}
    ensures forall k :: 0 <= k < |r| ==> r[k] == t || r[k] in xs
    decreases |xs|
  {
    if |xs| == 0 then [t]
    else if t.updatedAt <= xs[0].updatedAt then [t] + xs
    else
      var rest := Insert(t, xs[1..]);
      assert xs == [xs[0]] + xs[1..];
      InsertedAfterHead(t, xs, rest);
      PrependSorted(xs[0], rest);
      [xs[0]] + rest
  }

  /** What is inserted into the tail of a sorted list, past its head, is
      still no earlier than the head. */
  lemma InsertedAfterHead(t: Todo, xs: seq<Todo>, rest: seq<Todo>)
    requires SortedByUpdatedAt(xs) && |xs| > 0 && xs[0].updatedAt < t.updatedAt
    requires forall k :: 0 <= k < |rest| ==> rest[k] == t || rest[k] in xs[1..]
    ensures forall k :: 0 <= k < |rest| ==> xs[0].updatedAt <= rest[k].updatedAt
  {
    forall k | 0 <= k < |rest| && rest[k] != t
      ensures xs[0].updatedAt <= rest[k].updatedAt
    {
      var j :| 0 <= j < |xs[1..]| && xs[1..][j] == rest[k];
      assert xs[j + 1] == rest[k];
    }
  }

  /** A sorted list stays sorted behind an element no later than all of it. */
  lemma PrependSorted(x: Todo, rest: seq<Todo>)
    requires SortedByUpdatedAt(rest)
    requires forall k :: 0 <= k < |rest| ==> x.updatedAt <= rest[k].updatedAt
    ensures SortedByUpdatedAt([x] + rest)
  {
  }

  /** `bucket.sort((a, b) => (a.updatedAt > b.updatedAt ? 1 : -1))`. The
      comparator never answers 0, so the order of equal timestamps is up to
      the engine; the model keeps them in list order. */
  function SortByUpdatedAt(xs: seq<Todo>): (r: seq<Todo>)
    ensures SortedByUpdatedAt(r)
    ensures multiset(r) == multiset(xs)
    decreases |xs|
  {
    if |xs| == 0 then []
    else
      assert xs == [xs[0]] + xs[1..];
      Insert(xs[0], SortByUpdatedAt(xs[1..]))
  }

  /** `statusToTodos`: one column per status. */
  datatype Columns = Columns(todo: seq<Todo>, ongoing: seq<Todo>, done: seq<Todo>)
  {
    function Of(status: Status): seq<Todo>
    {
      match status
      case TODO => todo
      case ONGOING => ongoing
      case DONE => done
    }
  }

  /** One column: the todos of a status, sorted. */
  function Column(todos: seq<Todo>, status: Status): (r: seq<Todo>)
    ensures SortedByUpdatedAt(r)
    ensures multiset(r) == multiset(OfStatus(todos, status))
    ensures |r| == |OfStatus(todos, status)|
    ensures forall t :: t in r <==> t in todos && t.status == status
  {
    var r := SortByUpdatedAt(OfStatus(todos, status));
    assert forall t :: t in r <==> t in multiset(r);
    assert |r| == |multiset(r)|;
    r
  }

  /** Every column is sorted by `updatedAt` and holds exactly the todos of its
      status, as many times as the list holds them. */
  function StatusToTodos(todos: seq<Todo>): (r: Columns)
    ensures forall s :: r.Of(s) == Column(todos, s)
  {
    var r := Columns(Column(todos, TODO), Column(todos, ONGOING), Column(todos, DONE));
    assert forall s :: r.Of(s) == Column(todos, s) by {
      forall s ensures r.Of(s) == Column(todos, s) {
        if s == TODO {
          assert r.Of(s) == r.todo;
        } else if s == ONGOING {
          assert r.Of(s) == r.ongoing;
        } else {
          assert r.Of(s) == r.done;
        }
      }
    }
    r
  }

  /** The column sizes add up to the number of todos: nothing is lost or doubled. */
  lemma {:induction false} ColumnsPartition(todos: seq<Todo>)
    ensures var c := StatusToTodos(todos);
      |c.todo| + |c.ongoing| + |c.done| == |todos|
  {
    var c := StatusToTodos(todos);
    assert c.todo == c.Of(TODO) && c.ongoing == c.Of(ONGOING) && c.done == c.Of(DONE);
    OfStatusCounts(todos);
  }

  lemma {:induction false} OfStatusCounts(todos: seq<Todo>)
    ensures |OfStatus(todos, TODO)| + |OfStatus(todos, ONGOING)| + |OfStatus(todos, DONE)| == |todos|
    decreases |todos|
  {
    if |todos| > 0 {
      OfStatusCounts(todos[1..]);
    }
  }

  // --------------------------------------------------------------- dragging

  /** `todos.find((todo) => todo.id === id)`, as a position. */
  function FindTodo(todos: seq<Todo>, id: string): Option<nat>
  {
    Seqs.FirstIndex(todos, (t: Todo) => t.id == id)
  }

  /** `handleDragStart`: the lock to request, if the dragged id is on the board. */
  function DecideDragStart(todos: seq<Todo>, activeId: string): (lock: Option<string>)
    ensures lock.Some? <==> exists j :: 0 <= j < |todos| && todos[j].id == activeId
    ensures lock.Some? ==> lock.value == activeId
  {
    match FindTodo(todos, activeId)
    case None => None
    case Some(i) => Some(todos[i].id)
  }

  /** What a drag ends in. */
  datatype DragOutcome =
    | Ignored                              // no todo, no column, or the same column
    | IncorrectStatus                      // the "Incorrect status" notification
    | Move(index: nat, newStatus: Status)  // optimistic update, then save

  /** The decision of `handleDragEnd`: the unlock to send and the outcome. */
  datatype DragDecision = DragDecision(unlock: Option<string>, outcome: DragOutcome)

  function DecideDragEnd(todos: seq<Todo>, activeId: string, over: Option<Status>): (d: DragDecision)
    ensures d.unlock.Some? <==> FindTodo(todos, activeId).Some?
    ensures d.unlock.Some? ==> d.unlock.value == activeId
    ensures d.outcome.Ignored? <==>
      FindTodo(todos, activeId).None? || over.None? || over.value == todos[FindTodo(todos, activeId).value].status
    ensures d.outcome.IncorrectStatus? ==>
      var i := FindTodo(todos, activeId).value;
      over.Some? && !TodoController.IsValidStatusChange(todos[i].status, over.value)
    ensures d.outcome.Move? ==>
      && FindTodo(todos, activeId) == Some(d.outcome.index)
      && over == Some(d.outcome.newStatus)
      && todos[d.outcome.index].status != d.outcome.newStatus
      && TodoController.IsValidStatusChange(todos[d.outcome.index].status, d.outcome.newStatus)
  {
    match FindTodo(todos, activeId)
    case None => DragDecision(None, Ignored)
    case Some(i) =>
      var todo := todos[i];
      if over.None? || todo.status == over.value then DragDecision(Some(todo.id), Ignored)
      else if over.value !in AllowedStatusTransitions(todo.status) then DragDecision(Some(todo.id), IncorrectStatus)
      else DragDecision(Some(todo.id), Move(i, over.value))
  }

  /** The lists the board's two drag handlers search. `handleDragEnd` is
      memoised on `[todos]` and so always sees the current list;
      `handleDragStart` is memoised on `[isConnected]` only, so it keeps the
      list of the render in which `isConnected` last changed (the first
      render included). */
  datatype Board = Board(todos: seq<Todo>, isConnected: bool, dragStartTodos: seq<Todo>)

  /** The first render: both handlers see the fetched list; the socket is
      not open yet. */
  function MountBoard(initial: seq<Todo>): (b: Board)
    ensures b.todos == initial && b.dragStartTodos == initial && !b.isConnected
  {
    Board(initial, false, initial)
  }

  /** `setTodos(list)`, from the reducer, a drag or the refetch effect:
      only the current list changes; the drag-start closure is not rebuilt. */
  function SetTodos(b: Board, list: seq<Todo>): (r: Board)
    ensures r.todos == list
    ensures r.isConnected == b.isConnected && r.dragStartTodos == b.dragStartTodos
  {
    b.(todos := list)
  }

  /** The hook's `isConnected` becoming `c`: a change rebuilds the
      drag-start closure over the list of that render; no change keeps it. */
  function SetConnected(b: Board, c: bool): (r: Board)
    ensures r.todos == b.todos && r.isConnected == c
    ensures c != b.isConnected ==> r.dragStartTodos == b.todos
    ensures c == b.isConnected ==> r == b
  {
    if c == b.isConnected then b else Board(b.todos, c, b.todos)
  }

  /** `handleDragStart` as written: it searches the list its closure kept. */
  function DragStartAsWritten(b: Board, activeId: string): (lock: Option<string>)
    ensures lock.Some? <==> exists j :: 0 <= j < |b.dragStartTodos| && b.dragStartTodos[j].id == activeId
    ensures lock.Some? ==> lock.value == activeId
  {
    DecideDragStart(b.dragStartTodos, activeId)
  }

  /** `handleDragStart` memoised on `[todos]` as well: it searches the
      current list, the one `handleDragEnd` searches. */
  function DragStart(b: Board, activeId: string): (lock: Option<string>)
    ensures lock.Some? <==> exists j :: 0 <= j < |b.todos| && b.todos[j].id == activeId
    ensures lock.Some? ==> lock.value == activeId
  {
    DecideDragStart(b.todos, activeId)
  }

  /** With the closure as written, a todo created by someone after the
      socket connected is never locked when dragged, yet its drag end sends
      an unlock for it. The drag takes no lock, so another user can lock or
      edit the todo while it is being dragged; the stray unlock is refused by
      the server unless the todo is held under the same display name
      (`WsProperties.SameNameIsSameHolder`). */
  lemma DragStartMissesNewTodos(initial: seq<Todo>, t: Todo, over: Option<Status>)
    requires forall j :: 0 <= j < |initial| ==> initial[j].id != t.id
    ensures var b := SetTodos(SetConnected(MountBoard(initial), true), OnTodoChange(initial, t, Create));
      && DragStartAsWritten(b, t.id).None?
      && DecideDragEnd(b.todos, t.id, over).unlock == Some(t.id)
  {
    var b := SetTodos(SetConnected(MountBoard(initial), true), OnTodoChange(initial, t, Create));
    assert b.todos[|initial|].id == t.id;
  }

  /** With the corrected closure, on any board, a drag that locked a todo
      when it started unlocks the same todo when it ends (absent list changes
      in between), and one that locked nothing unlocks nothing. */
  lemma DragUnlocksWhatItLocked(b: Board, activeId: string, over: Option<Status>)
    ensures DecideDragEnd(b.todos, activeId, over).unlock == DragStart(b, activeId)
  {
  }

  /** The corrected closure agrees with the written one exactly until the
      list changes after the last connection change. */
  lemma DragStartAgreesWhileListUnchanged(b: Board, activeId: string)
    requires b.dragStartTodos == b.todos
    ensures DragStartAsWritten(b, activeId) == DragStart(b, activeId)
  {
  }

  /** The optimistic update: the dragged todo takes the new status and the
      current time. */
  function ApplyOptimistic(todos: seq<Todo>, i: nat, newStatus: Status, now: int): (r: seq<Todo>)
    requires i < |todos|
    ensures |r| == |todos|
    ensures r[i] == todos[i].(status := newStatus, updatedAt := now)
    ensures forall j :: 0 <= j < |todos| && j != i ==> r[j] == todos[j]
  {
    todos[i := todos[i].(status := newStatus, updatedAt := now)]
  }

  /** The revert: status and `updatedAt` go back to the snapshot's. */
  function Revert(todos: seq<Todo>, i: nat, snapshot: Todo): (r: seq<Todo>)
    requires i < |todos|
    ensures |r| == |todos|
    ensures r[i].status == snapshot.status && r[i].updatedAt == snapshot.updatedAt
    ensures r[i] == todos[i].(status := snapshot.status, updatedAt := snapshot.updatedAt)
    ensures forall j :: 0 <= j < |todos| && j != i ==> r[j] == todos[j]
  {
    todos[i := todos[i].(status := snapshot.status, updatedAt := snapshot.updatedAt)]
  }

  /** Reverting with the snapshot taken before the optimistic update gives back
      the list as it was when the drag ended. */
  lemma RevertUndoesOptimistic(todos: seq<Todo>, i: nat, newStatus: Status, now: int)
    requires i < |todos|
    ensures Revert(ApplyOptimistic(todos, i, newStatus, now), i, todos[i]) == todos
  {
    assert Revert(ApplyOptimistic(todos, i, newStatus, now), i, todos[i])[i] == todos[i];
  }

  /** The PATCH body `changeTodoStatus` sends. */
  function SaveRequest(todo: Todo, newStatus: Status): (body: TodoController.UpdateBody)
    ensures body.status == newStatus
    ensures body.text == todo.text && body.assignedTo == todo.assignedTo
  {
    TodoController.UpdateBody(todo.text, newStatus, todo.assignedTo)
  }

  /** The list `handleDragEnd` leaves behind for a move, given whether the save
      succeeded. A failed save restores the list as it was when the drag ended
      (`handleDragEnd`'s `todos`), so changes that arrived during the save are
      dropped until the collection is fetched again. */
  function FinishMove(todos: seq<Todo>, i: nat, newStatus: Status, now: int, saved: bool): (r: seq<Todo>)
    requires i < |todos|
    ensures |r| == |todos| && forall j :: 0 <= j < |todos| && j != i ==> r[j] == todos[j]
    ensures saved ==> r[i].status == newStatus && r[i].updatedAt == now
    ensures saved ==> r[i] == todos[i].(status := newStatus, updatedAt := now)
    ensures !saved ==> r == todos
  {
    var optimistic := ApplyOptimistic(todos, i, newStatus, now);
    if saved then optimistic
    else
      RevertUndoesOptimistic(todos, i, newStatus, now);
      Revert(optimistic, i, todos[i])
  }

  /** When the server's copy has the status the client saw, the authoritative
      check accepts every move the client lets through. */
  lemma MoveAcceptedWhenInSync(todos: seq<Todo>, activeId: string, over: Option<Status>, store: TodoController.Store)
    requires DecideDragEnd(todos, activeId, over).outcome.Move?
    requires var i := DecideDragEnd(todos, activeId, over).outcome.index;
      activeId in store && store[activeId].status == todos[i].status
    ensures var m := DecideDragEnd(todos, activeId, over).outcome;
      TodoController.UpdateTodo(store, activeId, SaveRequest(todos[m.index], m.newStatus)).1.Ok?
  {
  }

  // ------------------------------------------------------- column and card

  /** `shouldHighlightColumn` of `TodoColumn`. */
  function ShouldHighlightColumn(isOver: bool, dragged: Option<Status>, column: Status): (b: bool)
    ensures b <==> isOver && dragged.Some? && dragged.value != column
                   && TodoController.IsValidStatusChange(dragged.value, column)
  {
    isOver && dragged.Some? && column in AllowedStatusTransitions(dragged.value)
  }

  /** The `isLocked` flag of a card: its id is among `lockedTodos`. */
  function IsLocked(lockedTodos: map<string, string>, todo: Todo): (locked: bool)
    ensures locked <==> exists holder :: (todo.id, holder) in lockedTodos.Items
  {
    if todo.id in lockedTodos then
      assert (todo.id, lockedTodos[todo.id]) in lockedTodos.Items;
      true
    else false
  }

  /** Once the client has read the lock table the server sent it, a card shows
      as locked exactly when someone under another name holds it; the user's
      own locks never lock their own cards. */
  lemma LockedFlagMeansOthersLock(h: Collaboration.Hook, me: WsServer.Client, table: WsServer.Locks, todo: Todo)
    ensures var r := Collaboration.OnMessage(h, Collaboration.Decoded(Collaboration.Read(WsServer.Render(WsServer.LockTable(table), me)))).0;
      IsLocked(r.lockedTodos, todo) <==> todo.id in table && table[todo.id] != me.userName
  {
    Collaboration.ClientSeesOthersLocks(h, me, table);
  }
}

=== FILE: todos.dfy ===
/** The todo read projection shared by the server and the client. */
module Todos {

  /** Prisma's `TodoStatus`, mirrored by the client's `TodoStatus` enumeration. */
  datatype Status = TODO | ONGOING | DONE

  /** The `action` of a `TODO_UPDATED` announcement. */
  datatype Action = Create | Update | Delete

  /** A todo as the collaboration layer sees it: `assignedTo` and `createdBy`
      stand for the joined users, and `updatedAt` is an abstract, totally ordered
      timestamp (the client compares ISO strings). */
  datatype Todo = Todo(
    id: string,
    text: string,
    status: Status,
    assignedTo: string,
    createdBy: string,
    collectionKey: string,
    updatedAt: int)
}

=== FILE: wrappers.dfy ===
/** Small failure-carrying datatypes shared by every module of the model. */
module Wrappers {

  /** A value that may be absent (`undefined`/`null` on the JavaScript side). */
  datatype Option<+T> = None | Some(value: T)

  /** The value of a computation that either returns or throws. */
  datatype Result<+T, +E> = Ok(value: T) | Err(error: E)

  /** The value of a computation that returns nothing or throws. */
  datatype Outcome<+E> = Pass | Fail(error: E)
}

=== FILE: ws_properties.dfy ===
/** Properties of the collaboration server that relate several calls or hold
    for every event. */
module WsProperties {
  import opened Wrappers
  import opened Todos
  import opened WsServer

  /** A second `getCollection` returns the entry the first one created. */
  lemma GetCollectionIdempotent(collections: map<string, Locks>, key: string)
    ensures GetCollection(GetCollection(collections, key).0, key) == GetCollection(collections, key)
  {
  }

  /** `getCollectionWsClients` keeps client order: filtering a concatenation is
      the concatenation of the filtered parts. */
  lemma {:induction false} MembersAppend(a: seq<Client>, b: seq<Client>, key: string)
    ensures Members(a + b, key) == Members(a, key) + Members(b, key)
    decreases |a|
  {
    if |a| == 0 {
      assert a + b == b;
    } else {
      assert (a + b)[0] == a[0];
      assert (a + b)[1..] == a[1..] + b;
      MembersAppend(a[1..], b, key);
    }
  }

  /** The presence list is the names of the collection's clients in client
      order, one entry per connection: two tabs under one name appear twice. */
  lemma {:induction false} PresenceInClientOrder(a: seq<Client>, b: seq<Client>, c: Client, key: string)
    ensures Presence(a + b, key) == Presence(a, key) + Presence(b, key)
    ensures Presence([c], key) == if c.collectionKey == Some(key) then [c.userName] else []
  {
    MembersAppend(a, b, key);
    NamesAppend(Members(a, key), Members(b, key));
    assert Members([c], key) == (if c.collectionKey == Some(key) then [c] else []) + Members([], key);
  }

  lemma NamesAppend(a: seq<Client>, b: seq<Client>)
    ensures Names(a + b) == Names(a) + Names(b)
  {
    assert forall k :: 0 <= k < |a + b| ==> Names(a + b)[k] == (Names(a) + Names(b))[k];
  }

  /** A name is listed exactly when some client joined to the collection has it. */
  lemma PresenceNames(clients: seq<Client>, key: string, name: string)
    ensures name in Presence(clients, key) <==>
      exists c :: c in clients && c.collectionKey == Some(key) && c.userName == name
  {
    var ms := Members(clients, key);
    if name in Presence(clients, key) {
      var k :| 0 <= k < |ms| && Names(ms)[k] == name;
      assert ms[k] in ms;
    }
    if exists c :: c in clients && c.collectionKey == Some(key) && c.userName == name {
      var c :| c in clients && c.collectionKey == Some(key) && c.userName == name;
      assert c in ms;
      var k :| 0 <= k < |ms| && ms[k] == c;
      assert Names(ms)[k] == name;
    }
  }

  /** `send` is a `LOCKS_UPDATED` for `c` holding exactly the entries of `locks`
      held under names other than `c`'s. */
  predicate SeesOthersLocks(send: Send, c: Client, locks: Locks)
  {
    && send.to == c.id
    && send.message.LocksUpdated?
    && (forall id :: id in send.message.locks ==> id in locks && locks[id] != c.userName)
    && (forall id :: id in locks && locks[id] != c.userName ==>
          id in send.message.locks && send.message.locks[id] == locks[id])
  }

  /** `send` is such a view for one of the open recipients. */
  predicate LockViewFor(send: Send, recipients: seq<Client>, locks: Locks)
  {
    exists c :: c in recipients && c.isOpen && SeesOthersLocks(send, c, locks)
  }

  /** `send` goes to an open client among `clients` joined to `key`. */
  predicate ToOpenMember(send: Send, clients: seq<Client>, key: Option<string>)
  {
    exists c :: c in clients && c.id == send.to && c.isOpen && c.collectionKey == key
  }

  /** Every `LOCKS_UPDATED` goes to an open recipient and holds every entry of the
      table except those held under the recipient's own name. */
  lemma LockViewHidesOwnLocks(recipients: seq<Client>, locks: Locks)
    ensures forall k :: 0 <= k < |Fanout(recipients, LockTable(locks))| ==>
      LockViewFor(Fanout(recipients, LockTable(locks))[k], recipients, locks)
  {
    var sends := Fanout(recipients, LockTable(locks));
    forall k | 0 <= k < |sends|
      ensures LockViewFor(sends[k], recipients, locks)
    {
      FanoutSend(recipients, LockTable(locks), k);
      var c :| c in recipients && c.isOpen && sends[k] == Send(c.id, Render(LockTable(locks), c));
      var view := DropHolder(locks, c.userName);
      assert sends[k] == Send(c.id, LocksUpdated(view));
      assert SeesOthersLocks(sends[k], c, locks);
    }
  }

  /** The first lock attempt wins: once a todo is locked under a (non-empty) name,
      a later attempt by any client, under any name, changes nothing and sends nothing. */
  lemma FirstLockWins(s: State, i: nat, j: nat, todoId: string, key: string)
    requires i < |s.clients| && j < |s.clients|
    requires s.clients[i].userName != ""
    requires !Held(LocksIn(s.collections, key), todoId)
    ensures var s1 := HandleLock(s, i, todoId, key).state;
      && LocksIn(s1.collections, key)[todoId] == s.clients[i].userName
      && HandleLock(s1, j, todoId, key) == Reaction(s1, [])
  {
    var s1 := HandleLock(s, i, todoId, key).state;
    assert LocksIn(s1.collections, key) == LocksIn(s.collections, key)[todoId := s.clients[i].userName];
  }

  /** Only the holder releases a lock: after client `i` locks a todo, an unlock
      from a client under another name keeps the entry and sends nothing, while
      an unlock under the holder's name removes it and restores the table. */
  lemma OnlyHolderUnlocks(s: State, i: nat, j: nat, todoId: string, key: string)
    requires i < |s.clients| && j < |s.clients|
    requires todoId !in LocksIn(s.collections, key)
    ensures var s1 := HandleLock(s, i, todoId, key).state;
      var r := HandleUnlock(s1, j, todoId, key);
      && (s.clients[j].userName != s.clients[i].userName ==>
            r.sends == [] && LocksIn(r.state.collections, key) == LocksIn(s1.collections, key))
      && (s.clients[j].userName == s.clients[i].userName ==>
            LocksIn(r.state.collections, key) == LocksIn(s.collections, key))
  {
    var s1 := HandleLock(s, i, todoId, key).state;
    assert LocksIn(s1.collections, key) == LocksIn(s.collections, key)[todoId := s.clients[i].userName];
    UnlockAfterLock(s1, j, todoId, key, s.clients[i].userName, LocksIn(s.collections, key));
  }

  /** An unlock on a table whose entry `todoId` was just added for `holder`. */
  lemma UnlockAfterLock(s1: State, j: nat, todoId: string, key: string, holder: string, before: Locks)
    requires j < |s1.clients|
    requires todoId !in before
    requires LocksIn(s1.collections, key) == before[todoId := holder]
    ensures var r := HandleUnlock(s1, j, todoId, key);
      && (s1.clients[j].userName != holder ==>
            r.sends == [] && LocksIn(r.state.collections, key) == LocksIn(s1.collections, key))
      && (s1.clients[j].userName == holder ==> LocksIn(r.state.collections, key) == before)
  {
    var r := HandleUnlock(s1, j, todoId, key);
    if s1.clients[j].userName == holder {
      assert LocksIn(r.state.collections, key) == before[todoId := holder] - {todoId};
      assert before[todoId := holder] - {todoId} == before;
    }
  }

  /** Closing a connection releases every lock held under its name in its
      collection, keeps every other entry, and sends no lock table. */
  lemma CloseReleasesOnlyOwnLocks(s: State, i: nat, todoId: string)
    requires i < |s.clients|
    requires s.clients[i].collectionKey.Some? && s.clients[i].collectionKey.value != ""
    ensures var key := s.clients[i].collectionKey.value;
      var before := LocksIn(s.collections, key);
      var after := LocksIn(HandleClose(s, i).state.collections, key);
      && (todoId in before && before[todoId] == s.clients[i].userName ==> todoId !in after)
      && (todoId in before && before[todoId] != s.clients[i].userName ==> todoId in after && after[todoId] == before[todoId])
      && (forall k :: 0 <= k < |HandleClose(s, i).sends| ==> HandleClose(s, i).sends[k].message.ActiveUsersUpdated?)
  {
  }

  /** A join only announces presence: the joiner is not sent the current lock
      table, so it sees no locks until the table next changes. */
  lemma JoinSendsOnlyPresence(s: State, i: nat, key: string)
    requires i < |s.clients|
    ensures var r := HandleJoin(s, i, key);
      forall k :: 0 <= k < |r.sends| ==> r.sends[k].message == ActiveUsersUpdated(Presence(r.state.clients, key))
  {
    var r := HandleJoin(s, i, key);
    var b := PresenceOf(Presence(r.state.clients, key));
    forall k | 0 <= k < |r.sends|
      ensures r.sends[k].message == ActiveUsersUpdated(Presence(r.state.clients, key))
    {
      FanoutSend(Members(r.state.clients, key), b, k);
    }
  }

  /** Identity is the display name: two connections under one name get the same
      lock view, and an unlock from either releases a lock taken by the other. */
  lemma SameNameIsSameHolder(s: State, i: nat, j: nat, todoId: string, key: string, locks: Locks)
    requires i < |s.clients| && j < |s.clients|
    requires s.clients[i].userName == s.clients[j].userName
    requires todoId !in LocksIn(s.collections, key)
    ensures Render(LockTable(locks), s.clients[i]) == Render(LockTable(locks), s.clients[j])
    ensures var s1 := HandleLock(s, i, todoId, key).state;
      todoId !in LocksIn(HandleUnlock(s1, j, todoId, key).state.collections, key)
  {
    var s1 := HandleLock(s, i, todoId, key).state;
    assert LocksIn(s1.collections, key) == LocksIn(s.collections, key)[todoId := s.clients[i].userName];
  }

  /** The collection a step's messages are meant for, if any. */
  function Target(s: State, e: Event): Option<string>
  {
    match e
    case Receive(conn, Parsed(m)) =>
      (match Decode(m)
       case Some(Join(key)) => Some(key)
       case Some(Lock(_, key)) => Some(key)
       case Some(Unlock(_, key)) => Some(key)
       case None => None)
    case Closed(conn) =>
      (match Find(s.clients, conn)
       case Some(i) => s.clients[i].collectionKey
       case None => None)
    case Announce(todo, _) => Some(todo.collectionKey)
    case _ => None
  }

  /** Fan-out reaches open clients of one collection only: every message of a
      step goes to a client that is still registered afterwards, whose socket is
      open, and which is joined to the step's target collection. */
  lemma SendsReachOnlyOpenMembers(s: State, e: Event, verify: string -> Option<Identity>)
    ensures var r := Step(s, e, verify);
      forall k :: 0 <= k < |r.sends| ==> ToOpenMember(r.sends[k], r.state.clients, Target(s, e))
  {
    var r := Step(s, e, verify);
    match e {
      case Connect(token) =>
      case SocketClosing(conn) =>
      case Announce(todo, action) =>
        FanoutReachesMembers(s.clients, todo.collectionKey, TodoChange(todo, action));
      case Closed(conn) =>
        match Find(s.clients, conn) {
          case None =>
          case Some(i) =>
            if s.clients[i].collectionKey.Some? && s.clients[i].collectionKey.value != "" {
              var key := s.clients[i].collectionKey.value;
              FanoutReachesMembers(r.state.clients, key, PresenceOf(Presence(r.state.clients, key)));
            }
        }
      case Receive(conn, frame) =>
        match (Find(s.clients, conn), frame) {
          case (Some(i), Parsed(m)) =>
            match Decode(m) {
              case Some(Join(key)) =>
                FanoutReachesMembers(r.state.clients, key, PresenceOf(Presence(r.state.clients, key)));
              case Some(Lock(todoId, key)) =>
                FanoutReachesMembers(s.clients, key, LockTable(r.state.collections[key]));
              case Some(Unlock(todoId, key)) =>
                FanoutReachesMembers(s.clients, key, LockTable(LocksIn(s.collections, key) - {todoId}));
              case None =>
            }
          case _ =>
        }
    }
  }

  /** The fan-out contract, instantiated at one position. */
  lemma FanoutSend(recipients: seq<Client>, b: Broadcast, k: int)
    requires 0 <= k < |Fanout(recipients, b)|
    ensures exists c :: c in recipients && c.isOpen && Fanout(recipients, b)[k] == Send(c.id, Render(b, c))
  {
    assert SentToOpen(Fanout(recipients, b)[k], recipients, b);
  }

  /** A fan-out over a collection's members reaches open members of that collection only. */
  lemma FanoutReachesMembers(clients: seq<Client>, key: string, b: Broadcast)
    ensures forall k :: 0 <= k < |Fanout(Members(clients, key), b)| ==>
      ToOpenMember(Fanout(Members(clients, key), b)[k], clients, Some(key))
  {
    forall k | 0 <= k < |Fanout(Members(clients, key), b)|
      ensures ToOpenMember(Fanout(Members(clients, key), b)[k], clients, Some(key))
    {
      var sends := Fanout(Members(clients, key), b);
      FanoutSend(Members(clients, key), b, k);
      var c :| c in Members(clients, key) && c.isOpen && sends[k] == Send(c.id, Render(b, c));
      assert c in clients && c.collectionKey == Some(key);
    }
  }

  /** No step of a well-formed state sends anything to a client that is closed
      or joined elsewhere. */
  lemma NoCrossCollectionSends(s: State, e: Event, verify: string -> Option<Identity>, other: Client)
    requires Valid(s)
    requires other in Step(s, e, verify).state.clients
    requires other.collectionKey != Target(s, e) || !other.isOpen
    ensures forall k :: 0 <= k < |Step(s, e, verify).sends| ==> Step(s, e, verify).sends[k].to != other.id
  {
    SendsReachOnlyOpenMembers(s, e, verify);
    StepPreservesValid(s, e, verify);
    SendsMissOthers(Step(s, e, verify), Target(s, e), other);
  }

  /** In a state with distinct connection ids, messages that all go to open
      clients joined to `target` miss every other registered client. */
  lemma SendsMissOthers(r: Reaction, target: Option<string>, other: Client)
    requires Valid(r.state)
    requires forall k :: 0 <= k < |r.sends| ==> ToOpenMember(r.sends[k], r.state.clients, target)
    requires other in r.state.clients
    requires other.collectionKey != target || !other.isOpen
    ensures forall k :: 0 <= k < |r.sends| ==> r.sends[k].to != other.id
  {
    forall k | 0 <= k < |r.sends|
      ensures r.sends[k].to != other.id
    {
      assert ToOpenMember(r.sends[k], r.state.clients, target);
      var c :| c in r.state.clients && c.id == r.sends[k].to && c.isOpen && c.collectionKey == target;
      var a :| 0 <= a < |r.state.clients| && r.state.clients[a] == c;
      var b :| 0 <= b < |r.state.clients| && r.state.clients[b] == other;
      assert a != b;
    }
  }

  /** The well-formedness every reachable state keeps: connection ids are
      distinct and already handed out, and a joined key is never empty. */
  predicate Valid(s: State)
  {
    && (forall i, j :: 0 <= i < j < |s.clients| ==> s.clients[i].id != s.clients[j].id)
    && (forall i :: 0 <= i < |s.clients| ==> s.clients[i].id < s.nextId)
    && (forall i :: 0 <= i < |s.clients| ==> s.clients[i].collectionKey != Some(""))
  }

  lemma InitialValid()
    ensures Valid(Initial)
  {
  }

  /** Every event keeps the state well formed. */
  lemma StepPreservesValid(s: State, e: Event, verify: string -> Option<Identity>)
    requires Valid(s)
    ensures Valid(Step(s, e, verify).state)
  {
    match e {
      case Connect(token) =>
      case Announce(todo, action) =>
      case SocketClosing(conn) =>
        match Find(s.clients, conn) {
          case None =>
          case Some(i) => SocketClosingPreservesValid(s, i);
        }
      case Closed(conn) =>
        match Find(s.clients, conn) {
          case None =>
          case Some(i) => ClosePreservesValid(s, i);
        }
      case Receive(conn, frame) =>
        match (Find(s.clients, conn), frame) {
          case (Some(i), Parsed(m)) =>
            match Decode(m) {
              case Some(Join(key)) => JoinPreservesValid(s, i, key);
              case Some(Lock(todoId, key)) =>
              case Some(Unlock(todoId, key)) =>
              case None =>
            }
          case _ =>
        }
    }
  }

  lemma SocketClosingPreservesValid(s: State, i: nat)
    requires Valid(s) && i < |s.clients|
    ensures Valid(HandleSocketClosing(s, i).state)
  {
    var cs := HandleSocketClosing(s, i).state.clients;
    assert forall a :: 0 <= a < |cs| ==> cs[a].id == s.clients[a].id && cs[a].collectionKey == s.clients[a].collectionKey;
  }

  lemma JoinPreservesValid(s: State, i: nat, key: string)
    requires Valid(s) && i < |s.clients| && key != ""
    ensures Valid(HandleJoin(s, i, key).state)
  {
    var cs := HandleJoin(s, i, key).state.clients;
    assert forall a :: 0 <= a < |cs| ==> cs[a].id == s.clients[a].id;
  }

  lemma ClosePreservesValid(s: State, i: nat)
    requires Valid(s) && i < |s.clients|
    ensures Valid(HandleClose(s, i).state)
  {
    var rest := HandleClose(s, i).state.clients;
    assert |rest| == |s.clients| - 1;
    assert forall a :: 0 <= a < |rest| ==> rest[a] == s.clients[if a < i then a else a + 1];
  }

  /** The token check as written lets a failed verification escape: any
      non-empty token that does not verify crashes the connection handler. */
  lemma BadTokenEscapesAsWritten(s: State, token: string, verify: string -> Option<Identity>)
    requires token != "" && verify(token).None?
    ensures HandleConnectAsWritten(s, Some(token), verify) == Crashed
    ensures HandleConnect(s, Some(token), verify) == Refused
  {
  }

  /** The corrected check agrees with the written one wherever the latter does not crash. */
  lemma ConnectAgreesWhenNoCrash(s: State, token: Option<string>, verify: string -> Option<Identity>)
    requires !HandleConnectAsWritten(s, token, verify).Crashed?
    ensures HandleConnect(s, token, verify) == HandleConnectAsWritten(s, token, verify)
  {
  }

  /** In a well-formed state a registered connection is found at its own position. */
  lemma FindRegistered(s: State, i: nat)
    requires Valid(s) && i < |s.clients|
    ensures Find(s.clients, s.clients[i].id) == Some(i)
  {
  }

  /** A `LOCK_TODO` frame from a registered client for a todo nobody holds
      makes that client's name the holder, and nothing else of the client list
      changes. */
  lemma StepLockTakesFreeTodo(s: State, i: nat, todoId: string, key: string, verify: string -> Option<Identity>)
    requires Valid(s) && i < |s.clients|
    requires todoId != "" && key != ""
    requires !Held(LocksIn(s.collections, key), todoId)
    ensures var r := Step(s, Receive(s.clients[i].id, Parsed(Incoming(LOCK_TODO, Some(todoId), Some(key)))), verify);
      && todoId in LocksIn(r.state.collections, key)
      && LocksIn(r.state.collections, key)[todoId] == s.clients[i].userName
      && r.state.clients == s.clients
  {
    FindRegistered(s, i);
    var m := Incoming(LOCK_TODO, Some(todoId), Some(key));
    assert Decode(m) == Some(Lock(todoId, key));
  }

  /** A `close` of a registered client that had joined a collection removes
      the connection and leaves no lock in that collection under its name. */
  lemma StepCloseFreesLocks(s: State, i: nat, verify: string -> Option<Identity>)
    requires Valid(s) && i < |s.clients|
    requires s.clients[i].collectionKey.Some?
    ensures var r := Step(s, Closed(s.clients[i].id), verify);
      var key := s.clients[i].collectionKey.value;
      && r.state.clients == s.clients[..i] + s.clients[i + 1..]
      && forall id :: id in LocksIn(r.state.collections, key) ==>
           LocksIn(r.state.collections, key)[id] != s.clients[i].userName
  {
    FindRegistered(s, i);
  }
}

=== FILE: ws_server.dfy ===
/** The server side of the real-time collaboration protocol (server/src/ws.ts).

    The process-wide `collections` record and the WebSocket server's client set
    become one explicit `State`; every event handler is a pure function from a
    state to the next state and the messages it sends, in order. A connection is
    named by a `ConnId` handed out at connect time, and `sendToClient` is an
    appended `Send`. */
module WsServer {
  import opened Wrappers
  import opened Todos
  import Asserts
  import Seqs

  type ConnId = nat

  /** One collection's lock table: todo id to the display name of the holder. */
  type Locks = map<string, string>

  /** An authenticated connection (`ExtendedWebSocket`). `isOpen` is
      `readyState === OPEN`; `collectionKey` is unset until a join. */
  datatype Client = Client(
    id: ConnId,
    userId: string,
    userName: string,
    collectionKey: Option<string>,
    isOpen: bool)

  /** `collections` (lock tables by collection key, created lazily) and
      `wss.clients` in insertion order; `nextId` names the next connection. */
  datatype State = State(collections: map<string, Locks>, clients: seq<Client>, nextId: nat)

  const Initial: State := State(map[], [], 0)

  /** The payload of a verified token. */
  datatype Identity = Identity(userId: string, name: string)

  /** The inbound message types. */
  const JOIN_COLLECTION: string := "JOIN_COLLECTION"
  const LOCK_TODO: string := "LOCK_TODO"
  const UNLOCK_TODO: string := "UNLOCK_TODO"

  /** A parsed inbound JSON object: its `type` and the two string fields the
      handler reads (absent or `null` fields are `None`). */
  datatype Incoming = Incoming(kind: string, todoId: Option<string>, collectionKey: Option<string>)

  /** The raw frame: `JSON.parse` either fails or yields a message. */
  datatype Frame = Unparsable | Parsed(message: Incoming)

  /** What a well-formed inbound message asks for. */
  datatype Command =
    | Join(key: string)
    | Lock(todoId: string, key: string)
    | Unlock(todoId: string, key: string)

  /** The outbound messages. */
  datatype Outgoing =
    | ActiveUsersUpdated(users: seq<string>)
    | LocksUpdated(locks: Locks)
    | TodoUpdated(todo: Todo, action: Action)

  datatype Send = Send(to: ConnId, message: Outgoing)

  /** The next state and the messages sent while reaching it, in send order. */
  datatype Reaction = Reaction(state: State, sends: seq<Send>)

  /** The events the server reacts to, one at a time. */
  datatype Event =
    | Connect(token: Option<string>)      // a socket opens with `?token=`
    | Receive(conn: ConnId, frame: Frame)  // a message arrives
    | SocketClosing(conn: ConnId)          // the transport leaves the OPEN state
    | Closed(conn: ConnId)                 // the socket has closed
    | Announce(todo: Todo, action: Action) // `broadcastTodoUpdated` from the HTTP routes

  // ---------------------------------------------------------------- decoding

  function FieldValue(field: Option<string>): Asserts.JsValue
  {
    match field
    case None => Asserts.Undefined
    case Some(text) => Asserts.Str(text)
  }

  /** `ensureTruthy(message.<field>, errorMessage)`: `None` when it throws. */
  function Required(field: Option<string>, errorMessage: string): (r: Option<string>)
    ensures r.Some? <==> field.Some? && field.value != ""
    ensures r.Some? ==> r == field
  {
    match Asserts.EnsureTruthy(FieldValue(field), Some(errorMessage), None)
    case Ok(Str(text)) => Some(text)
    case _ => None
  }

  /** The `switch (message.type)` of `handleMessage`, up to the first state
      change. `None` means the message changes nothing: its type is unknown,
      or a required field is missing or empty, so `ensureTruthy` throws and
      the `message` listener's `catch` only logs. */
  function Decode(m: Incoming): (r: Option<Command>)
    ensures m.kind == JOIN_COLLECTION ==>
      (r.Some? <==> m.collectionKey.Some? && m.collectionKey.value != "")
    ensures m.kind == LOCK_TODO || m.kind == UNLOCK_TODO ==>
      (r.Some? <==> m.todoId.Some? && m.todoId.value != "" && m.collectionKey.Some? && m.collectionKey.value != "")
    ensures m.kind != JOIN_COLLECTION && m.kind != LOCK_TODO && m.kind != UNLOCK_TODO ==> r.None?
    ensures r.Some? ==> match r.value
      case Join(key) => m.kind == JOIN_COLLECTION && m.collectionKey == Some(key)
      case Lock(todoId, key) => m.kind == LOCK_TODO && m.todoId == Some(todoId) && m.collectionKey == Some(key)
      case Unlock(todoId, key) => m.kind == UNLOCK_TODO && m.todoId == Some(todoId) && m.collectionKey == Some(key)
  {
    if m.kind == JOIN_COLLECTION then
      match Required(m.collectionKey, "Collection key is required")
      case None => None
      case Some(key) => Some(Join(key))
    else if m.kind == LOCK_TODO || m.kind == UNLOCK_TODO then
      match Required(m.todoId, "Todo ID is required")
      case None => None
      case Some(todoId) =>
        match Required(m.collectionKey, "Collection key is required")
        case None => None
        case Some(key) => if m.kind == LOCK_TODO then Some(Lock(todoId, key)) else Some(Unlock(todoId, key))
    else None
  }

  // ------------------------------------------------------ registry and tables

  /** The position of connection `id` among the clients, if it is still there. */
  function Find(clients: seq<Client>, id: ConnId): Option<nat>
  {
    Seqs.FirstIndex(clients, (c: Client) => c.id == id)
  }

  /** `getCollection(key)`: the collection's lock table, created empty on first use. */
  function GetCollection(collections: map<string, Locks>, key: string): (r: (map<string, Locks>, Locks))
    ensures key in r.0 && r.0[key] == r.1
    ensures key in collections ==> r == (collections, collections[key])
    ensures key !in collections ==> r == (collections[key := map[]], map[])
  {
    if key in collections then (collections, collections[key])
    else (collections[key := map[]], map[])
  }

  /** The lock table of `key` as the handlers see it: empty if never created. */
  function LocksIn(collections: map<string, Locks>, key: string): Locks
  {
    if key in collections then collections[key] else map[]
  }

  /** A lock entry blocks a new lock when its holder is truthy (`if (collection.locks[todoId]) break`). */
  predicate Held(locks: Locks, todoId: string)
  {
    todoId in locks && locks[todoId] != ""
  }

  /** The entries of `locks` not held by `name`. Both the per-recipient view of
      `updateLocks` and the release of `releaseTodoLocks` drop exactly these. */
  function DropHolder(locks: Locks, name: string): (r: Locks)
    ensures forall id :: id in r <==> id in locks && locks[id] != name
    ensures forall id :: id in r ==> r[id] == locks[id]
  {
    map id | id in locks && locks[id] != name :: locks[id]
  }

  /** `getCollectionWsClients(key)`: the clients joined to `key`, in client order,
      whether or not their socket is still open. */
  function Members(clients: seq<Client>, key: string): (r: seq<Client>)
    ensures forall c :: c in r <==> c in clients && c.collectionKey == Some(key)
    ensures |r| <= |clients|
    decreases |clients|
  {
    if |clients| == 0 then []
    else (if clients[0].collectionKey == Some(key) then [clients[0]] else []) + Members(clients[1..], key)
  }

  /** `clients.map((client) => client.userName)`. */
  function Names(clients: seq<Client>): (names: seq<string>)
    ensures |names| == |clients|
    ensures forall i :: 0 <= i < |clients| ==> names[i] == clients[i].userName
  {
    seq(|clients|, i requires 0 <= i < |clients| => clients[i].userName)
  }

  /** The presence list of `updateActiveUsers(key)`: one name per joined client,
      duplicates kept. */
  function Presence(clients: seq<Client>, key: string): (users: seq<string>)
    ensures |users| == |Members(clients, key)|
    ensures forall i :: 0 <= i < |users| ==> users[i] == Members(clients, key)[i].userName
  {
    Names(Members(clients, key))
  }

  // -------------------------------------------------------------- broadcasts

  /** What a fan-out sends; the lock table is filtered per recipient. */
  datatype Broadcast =
    | PresenceOf(users: seq<string>)
    | LockTable(locks: Locks)
    | TodoChange(todo: Todo, action: Action)

  /** The message one recipient gets. A recipient never sees its own locks. */
  function Render(b: Broadcast, recipient: Client): (m: Outgoing)
    ensures b.PresenceOf? ==> m == ActiveUsersUpdated(b.users)
    ensures b.LockTable? ==> m == LocksUpdated(DropHolder(b.locks, recipient.userName))
    ensures b.TodoChange? ==> m == TodoUpdated(b.todo, b.action)
    ensures m.LocksUpdated? ==> forall id :: id in m.locks ==> m.locks[id] != recipient.userName
  {
    match b
    case PresenceOf(users) => ActiveUsersUpdated(users)
    case LockTable(locks) => LocksUpdated(DropHolder(locks, recipient.userName))
    case TodoChange(todo, action) => TodoUpdated(todo, action)
  }

  /** The recipients whose socket is open, in order. */
  function OpenOnes(recipients: seq<Client>): (r: seq<Client>)
    ensures forall c :: c in r <==> c in recipients && c.isOpen
    ensures |r| <= |recipients|
    decreases |recipients|
  {
    if |recipients| == 0 then []
    else (if recipients[0].isOpen then [recipients[0]] else []) + OpenOnes(recipients[1..])
  }

  /** `send` is `b` rendered for one of the open recipients. */
  predicate SentToOpen(send: Send, recipients: seq<Client>, b: Broadcast)
  {
    exists c :: c in recipients && c.isOpen && send == Send(c.id, Render(b, c))
  }

  /** `recipients.forEach((client) => sendToClient(client, ...))`: sockets that are
      not open are skipped, and nothing is queued for them. */
  function Fanout(recipients: seq<Client>, b: Broadcast): (sends: seq<Send>)
    ensures |sends| == |OpenOnes(recipients)|
    ensures forall k :: 0 <= k < |sends| ==>
      sends[k] == Send(OpenOnes(recipients)[k].id, Render(b, OpenOnes(recipients)[k]))
    ensures forall k :: 0 <= k < |sends| ==> SentToOpen(sends[k], recipients, b)
    ensures forall c :: c in recipients && c.isOpen ==> Send(c.id, Render(b, c)) in sends
    ensures |sends| <= |recipients|
    decreases |recipients|
  {
    if |recipients| == 0 then []
    else
      var c := recipients[0];
      var head := if c.isOpen then [Send(c.id, Render(b, c))] else [];
      var rest := Fanout(recipients[1..], b);
      var sends := head + rest;
      var open := OpenOnes(recipients);
      assert open == (if c.isOpen then [c] else []) + OpenOnes(recipients[1..]);
      assert forall k :: 0 <= k < |sends| ==> sends[k] == Send(open[k].id, Render(b, open[k])) by {
        forall k | 0 <= k < |sends|
          ensures sends[k] == Send(open[k].id, Render(b, open[k]))
        {
          if k >= |head| {
            assert sends[k] == rest[k - |head|];
            assert open[k] == OpenOnes(recipients[1..])[k - |head|];
          }
        }
      }
      OpenRenderingReachesAll(sends, recipients, b);
      sends
  }

  /** Sending `b` rendered to each open recipient, in order, reaches exactly
      the open recipients. */
  lemma OpenRenderingReachesAll(sends: seq<Send>, recipients: seq<Client>, b: Broadcast)
    requires |sends| == |OpenOnes(recipients)|
    requires forall k :: 0 <= k < |sends| ==>
      sends[k] == Send(OpenOnes(recipients)[k].id, Render(b, OpenOnes(recipients)[k]))
    ensures forall k :: 0 <= k < |sends| ==> SentToOpen(sends[k], recipients, b)
    ensures forall c :: c in recipients && c.isOpen ==> Send(c.id, Render(b, c)) in sends
  {
    var open := OpenOnes(recipients);
    forall k | 0 <= k < |sends|
      ensures SentToOpen(sends[k], recipients, b)
    {
      assert open[k] in open;
    }
    forall c | c in recipients && c.isOpen
      ensures Send(c.id, Render(b, c)) in sends
    {
      assert c in open;
      var k :| 0 <= k < |open| && open[k] == c;
      assert sends[k] == Send(c.id, Render(b, c));
    }
  }

  /** `updateActiveUsers(key)`. */
  function UpdateActiveUsers(clients: seq<Client>, key: string): (sends: seq<Send>)
    ensures |sends| == |OpenOnes(Members(clients, key))|
    ensures forall k :: 0 <= k < |sends| ==>
      sends[k] == Send(OpenOnes(Members(clients, key))[k].id, ActiveUsersUpdated(Presence(clients, key)))
  {
    Fanout(Members(clients, key), PresenceOf(Presence(clients, key)))
  }

  /** `updateLocks(key)`. */
  function UpdateLocks(collections: map<string, Locks>, clients: seq<Client>, key: string): (r: (map<string, Locks>, seq<Send>))
    ensures r.0 == collections[key := LocksIn(collections, key)]
    ensures |r.1| == |OpenOnes(Members(clients, key))|
    ensures forall k :: 0 <= k < |r.1| ==>
      var m := OpenOnes(Members(clients, key))[k];
      r.1[k] == Send(m.id, LocksUpdated(DropHolder(LocksIn(collections, key), m.userName)))
  {
    var (table, locks) := GetCollection(collections, key);
    (table, Fanout(Members(clients, key), LockTable(locks)))
  }

  // ------------------------------------------------------------------ events

  /** Outcome of a connection attempt. */
  datatype ConnectOutcome = Accepted(state: State, conn: ConnId) | Refused | Crashed

  /** The connection handler with the token check as intended: a missing or
      empty token, or one that fails verification, closes the socket before it
      is registered. `verify` stands for `validateJwtToken`, `None` when it throws. */
  function HandleConnect(s: State, token: Option<string>, verify: string -> Option<Identity>): (r: ConnectOutcome)
    ensures !r.Crashed?
    ensures r.Accepted? <==> token.Some? && token.value != "" && verify(token.value).Some?
    ensures r.Accepted? ==>
      var user := verify(token.value).value;
      && r.conn == s.nextId
      && r.state == State(s.collections, s.clients + [Client(s.nextId, user.userId, user.name, None, true)], s.nextId + 1)
  {
    if token.None? || token.value == "" then Refused
    else
      match verify(token.value)
      case None => Refused
      case Some(user) =>
        Accepted(State(s.collections, s.clients + [Client(s.nextId, user.userId, user.name, None, true)], s.nextId + 1), s.nextId)
  }

  /** The connection handler as written: `jwtToken && validateJwtToken(jwtToken)`
      lets the exception of a failed verification escape the `connection`
      listener, so the `if (!user) ws.close()` branch only catches a missing or
      empty token. */
  function HandleConnectAsWritten(s: State, token: Option<string>, verify: string -> Option<Identity>): (r: ConnectOutcome)
    ensures r.Refused? <==> token.None? || token.value == ""
    ensures r.Crashed? <==> token.Some? && token.value != "" && verify(token.value).None?
  {
    if token.None? || token.value == "" then Refused
    else
      match verify(token.value)
      case None => Crashed
      case Some(user) =>
        Accepted(State(s.collections, s.clients + [Client(s.nextId, user.userId, user.name, None, true)], s.nextId + 1), s.nextId)
  }

  /** `JOIN_COLLECTION`: rebind the client to `key` and tell that collection who is
      present. The lock tables are untouched, the client's previous collection
      is not told, and no lock table is sent to the joiner. */
  function HandleJoin(s: State, i: nat, key: string): (r: Reaction)
    requires i < |s.clients|
    ensures r.state.collections == s.collections && r.state.nextId == s.nextId
    ensures |r.state.clients| == |s.clients|
    ensures r.state.clients[i] == s.clients[i].(collectionKey := Some(key))
    ensures forall j :: 0 <= j < |s.clients| && j != i ==> r.state.clients[j] == s.clients[j]
    ensures r.sends == Fanout(Members(r.state.clients, key), PresenceOf(Presence(r.state.clients, key)))
  {
    var clients := s.clients[i := s.clients[i].(collectionKey := Some(key))];
    Reaction(s.(clients := clients), UpdateActiveUsers(clients, key))
  }

  /** `LOCK_TODO`: the first attempt wins. A held todo stays with its holder
      and nothing is sent; otherwise the sender becomes the holder and the
      collection is sent its new lock table. */
  function HandleLock(s: State, i: nat, todoId: string, key: string): (r: Reaction)
    requires i < |s.clients|
    ensures r.state.clients == s.clients && r.state.nextId == s.nextId
    ensures Held(LocksIn(s.collections, key), todoId) ==> r == Reaction(s, [])
    ensures !Held(LocksIn(s.collections, key), todoId) ==>
      && r.state.collections == s.collections[key := LocksIn(s.collections, key)[todoId := s.clients[i].userName]]
      && r.sends == Fanout(Members(s.clients, key), LockTable(r.state.collections[key]))
  {
    var (table, locks) := GetCollection(s.collections, key);
    if Held(locks, todoId) then Reaction(s.(collections := table), [])
    else
      var (table', sends) := UpdateLocks(table[key := locks[todoId := s.clients[i].userName]], s.clients, key);
      Reaction(s.(collections := table'), sends)
  }

  /** `UNLOCK_TODO`: only the holder's name releases the entry; any other request
      leaves the table as it was (bar the lazily created empty table) and sends
      nothing. */
  function HandleUnlock(s: State, i: nat, todoId: string, key: string): (r: Reaction)
    requires i < |s.clients|
    ensures r.state.clients == s.clients && r.state.nextId == s.nextId
    ensures forall k :: k != key ==> (k in r.state.collections <==> k in s.collections)
    ensures forall k :: k != key && k in s.collections ==> r.state.collections[k] == s.collections[k]
    ensures var locks := LocksIn(s.collections, key);
      todoId in locks && locks[todoId] == s.clients[i].userName ==>
        && r.state.collections == s.collections[key := locks - {todoId}]
        && r.sends == Fanout(Members(s.clients, key), LockTable(locks - {todoId}))
    ensures var locks := LocksIn(s.collections, key);
      !(todoId in locks && locks[todoId] == s.clients[i].userName) ==>
        && r.state.collections == GetCollection(s.collections, key).0
        && LocksIn(r.state.collections, key) == locks
        && r.sends == []
  {
    var (table, locks) := GetCollection(s.collections, key);
    if !(todoId in locks && locks[todoId] == s.clients[i].userName) then Reaction(s.(collections := table), [])
    else
      var (table', sends) := UpdateLocks(table[key := locks - {todoId}], s.clients, key);
      Reaction(s.(collections := table'), sends)
  }

  /** `releaseTodoLocks(ws)`: drop every entry of `key` held by `name`; nothing
      else changes. */
  function ReleaseTodoLocks(collections: map<string, Locks>, key: string, name: string): (r: map<string, Locks>)
    ensures key in r
    ensures forall id :: id in r[key] <==> id in LocksIn(collections, key) && LocksIn(collections, key)[id] != name
    ensures forall id :: id in r[key] ==> r[key][id] == LocksIn(collections, key)[id]
    ensures forall k :: k != key ==> (k in r <==> k in collections)
    ensures forall k :: k != key && k in collections ==> r[k] == collections[k]
  {
    var (table, locks) := GetCollection(collections, key);
    table[key := DropHolder(locks, name)]
  }

  /** The `close` listener. The socket has already left the client set when it
      runs; if it had joined a collection, the locks held under its name there
      are released and the remaining members are told who is present. No lock
      table is sent, so the others keep showing the released locks. */
  function HandleClose(s: State, i: nat): (r: Reaction)
    requires i < |s.clients|
    ensures r.state.clients == s.clients[..i] + s.clients[i + 1..] && r.state.nextId == s.nextId
    ensures (s.clients[i].collectionKey.None? || s.clients[i].collectionKey == Some("")) ==>
      r == Reaction(s.(clients := r.state.clients), [])
    ensures s.clients[i].collectionKey.Some? && s.clients[i].collectionKey.value != "" ==>
      var key := s.clients[i].collectionKey.value;
      && r.state.collections == ReleaseTodoLocks(s.collections, key, s.clients[i].userName)
      && r.sends == Fanout(Members(r.state.clients, key), PresenceOf(Presence(r.state.clients, key)))
  {
    var closing := s.clients[i];
    var clients := s.clients[..i] + s.clients[i + 1..];
    match closing.collectionKey
    case Some(key) =>
      if key != "" then
        Reaction(State(ReleaseTodoLocks(s.collections, key, closing.userName), clients, s.nextId), UpdateActiveUsers(clients, key))
      else Reaction(s.(clients := clients), [])
    case None => Reaction(s.(clients := clients), [])
  }

  /** The transport moves a socket out of OPEN (a closing handshake has begun):
      it stays registered but is skipped by every send. */
  function HandleSocketClosing(s: State, i: nat): (r: Reaction)
    requires i < |s.clients|
    ensures r.sends == [] && r.state.collections == s.collections && r.state.nextId == s.nextId
    ensures |r.state.clients| == |s.clients|
    ensures r.state.clients[i] == s.clients[i].(isOpen := false)
    ensures forall j :: 0 <= j < |s.clients| && j != i ==> r.state.clients[j] == s.clients[j]
  {
    Reaction(s.(clients := s.clients[i := s.clients[i].(isOpen := false)]), [])
  }

  /** `broadcastTodoUpdated(todo, action)`: every open member of the todo's
      collection is told, whatever the locks say; nothing changes. */
  function BroadcastTodoUpdated(s: State, todo: Todo, action: Action): (r: Reaction)
    ensures r.state == s
    ensures forall k :: 0 <= k < |r.sends| ==> r.sends[k].message == TodoUpdated(todo, action)
    ensures r.sends == Fanout(Members(s.clients, todo.collectionKey), TodoChange(todo, action))
  {
    Reaction(s, Fanout(Members(s.clients, todo.collectionKey), TodoChange(todo, action)))
  }

  /** `handleMessage` for a decoded command from client `i`. */
  function HandleCommand(s: State, i: nat, command: Command): Reaction
    requires i < |s.clients|
  {
    match command
    case Join(key) => HandleJoin(s, i, key)
    case Lock(todoId, key) => HandleLock(s, i, todoId, key)
    case Unlock(todoId, key) => HandleUnlock(s, i, todoId, key)
  }

  /** One event of the single-threaded event loop. */
  function Step(s: State, e: Event, verify: string -> Option<Identity>): (r: Reaction)
    ensures e.Connect? ==> r.sends == [] && r.state.collections == s.collections
    ensures e.Connect? ==> (r.state == s <==> HandleConnect(s, e.token, verify).Refused?)
    ensures e.Receive? && e.frame.Unparsable? ==> r == Reaction(s, [])
    ensures e.Receive? && e.frame.Parsed? && Decode(e.frame.message).None? ==> r == Reaction(s, [])
    ensures !e.Connect? && !e.Announce? && (forall j :: 0 <= j < |s.clients| ==> s.clients[j].id != e.conn)
            ==> r == Reaction(s, [])
    ensures e.Announce? ==> r.state == s
    ensures !e.Connect? ==> r.state.nextId == s.nextId
    ensures !e.Connect? && !e.Closed? ==> |r.state.clients| == |s.clients|
    ensures e.Connect? && HandleConnect(s, e.token, verify).Accepted? ==> r.state == HandleConnect(s, e.token, verify).state
    ensures e.Receive? && e.frame.Parsed? && Find(s.clients, e.conn).Some? && Decode(e.frame.message).Some?
            ==> r == HandleCommand(s, Find(s.clients, e.conn).value, Decode(e.frame.message).value)
    ensures e.SocketClosing? && Find(s.clients, e.conn).Some? ==> r == HandleSocketClosing(s, Find(s.clients, e.conn).value)
    ensures e.Closed? && Find(s.clients, e.conn).Some? ==> r == HandleClose(s, Find(s.clients, e.conn).value)
  {
    match e
    case Connect(token) =>
      (match HandleConnect(s, token, verify)
       case Accepted(s', _) => Reaction(s', [])
       case _ => Reaction(s, []))
    case Receive(conn, frame) =>
      (match (Find(s.clients, conn), frame)
       case (Some(i), Parsed(m)) =>
         (match Decode(m)
          case Some(command) => HandleCommand(s, i, command)
          case None => Reaction(s, []))
       case _ => Reaction(s, []))
    case SocketClosing(conn) =>
      (match Find(s.clients, conn)
       case Some(i) => HandleSocketClosing(s, i)
       case None => Reaction(s, []))
    case Closed(conn) =>
      (match Find(s.clients, conn)
       case Some(i) => HandleClose(s, i)
       case None => Reaction(s, []))
    case Announce(todo, action) => BroadcastTodoUpdated(s, todo, action)
  }
}
